=== FILE: README.md ===
# rpstir2 sync start, CRL store and sync-log-file records, in Dafny

This project models three parts of rpstir2, an RPKI relying-party toolkit, and proves properties of them.

**One sync run** (`Start` in the sync service):
1. Open a sync-log row.
2. Obtain the TALs.
3. Classify every TAL endpoint into the RRDP or the rsync list, according to the sync style (`sync`, `rrdp` or `rsync`).
4. Check whether the on-disk layout left by the other transport forces a full resynchronisation.
5. If it does, post the full-reset trigger.
6. If it does not, dispatch each transport that has URLs, wait on their two result channels until every dispatched transport has reported, close the log, and trigger parse/validate.

**The CRL store of parse/validate** (`lab_rpki_crl` and its child table `lab_rpki_crl_revoked_cert`):
- batch insertion (`AddCrls`, `insertCrl`) and batch deletion (`DelCrls`, `delCrlById`);
- deletion of the CRL stored under a file path and name (`DelCrlByFile`);
- each batch runs in one session: a failed statement rolls the session back, while a failed commit is returned as is and the deferred close of the session discards the uncommitted work;
- `DelCrlByFile` runs in its caller's session and never rolls back itself.

**The sync-log-file records** (`lab_rpki_sync_log_file`):
- selecting the records still to be written to the object tables, and resolving, for `update`/`del` records, the id of the object row they replace;
- marking records as processed.

Collaborators the code does not own become data:
- in the CRL store the database answers each statement through a fault oracle of type `Stmt -> Option<string>`, the error text when it fails;
- for the sync-log-file records, the select's error is an `Option<string>` parameter, object-table lookups answer through a `LookupOracle`, and UPDATEs through an `UpdateFaults` oracle;
- the TAL service's answer is a plain `Result` value, and the file system and the URL joiner become function-typed parameters;
- the two result channels become a sequence of signals in arrival order.

Tables are sequences of rows. The CRL table carries its auto-increment counter.

Modules:
- `Wrappers`: `Option`/`Result`.
- `XormDb`: the NULL-string helper of the database layer.
- `UrlClassify`: `getUrlsBySyncStyle`.
- `FullSync`: `checkNeedFullSync`.
- `FanIn`: `callRrdpAndRsync`.
- `SyncStart`: `Start`.
- `CrlDb`: `crldb.go`.
- `SyncLogFileDb`: `synclogfiledb.go`.

## Model

| member | source | states |
|---|---|---|
| UrlClassify.RouteOf | src/sync/sync/sync.go:126-140 | Style `sync` sends an endpoint to RRDP exactly when it supports RRDP, and to rsync exactly when it lacks RRDP and supports rsync. `rrdp` and `rsync` take only endpoints offering that transport. Any other style takes nothing. |
| UrlClassify.GetUrlsBySyncStyle | src/sync/sync/sync.go:121-152 | On success, each list is exactly the URLs of the endpoints routed to it, in TAL then endpoint order. It fails with "there is neighor rrdp urls nor rsync urls" and empty lists exactly when both lists would be empty. |
| UrlClassify.RoutedAppend | src/sync/sync/sync.go:123-142 | Classifying the endpoints of consecutive TALs gives the concatenation of their classifications. |
| UrlClassify.RoutedIsOrderedSubsequence | src/sync/sync/sync.go:123-142 | Each output list is an order-preserving subsequence of the endpoints: the k-th URL comes from the k-th routed endpoint, positions strictly increase, and every endpoint routed to the list appears in it. |
| UrlClassify.RrdpStyleHasNoRsync | src/sync/sync/sync.go:132-135 | Style `rrdp` never produces an rsync URL. |
| UrlClassify.RsyncStyleHasNoRrdp | src/sync/sync/sync.go:136-139 | Style `rsync` never produces an RRDP URL. |
| UrlClassify.UnknownStyleSelectsNothing | src/sync/sync/sync.go:126-149 | An unrecognised style yields two empty lists, so the call fails. |
| UrlClassify.SyncStylePrefersRrdp | src/sync/sync/sync.go:126-131 | Under `sync`, an endpoint is in the RRDP list iff it supports RRDP, and in the rsync list iff it supports only rsync. It is never in both. |
| UrlClassify.SingleEndpointExample | src/sync/sync/sync.go:126-131 | An endpoint offering both transports goes to RRDP only under `sync`. |
| FullSync.ScanUrls | src/sync/sync/sync.go:162-178 | A scan finds no conflict iff every URL's path joins and is reported absent. A conflict or a probe error names the first blocking URL, and all URLs before it are clear. |
| FullSync.CheckNeedFullSync | src/sync/sync/sync.go:154-198 | The roots are the configured destination plus the separator. No full sync is needed iff every RRDP URL is absent under the rsync root and every rsync URL is absent under the RRDP root. An error implies needFullSync and is the error of a failed join or existence check of some probed URL. A full sync without an error means some probed path exists. |
| FullSync.ScanStopsAtFirstBlock | src/sync/sync/sync.go:162-178 | The scan short-circuits: once a prefix blocks, nothing after it affects the outcome. |
| FullSync.RrdpScannedFirst | src/sync/sync/sync.go:162-195 | When an RRDP URL blocks, the verdict is a full sync and does not depend on the rsync URLs. |
| FullSync.ConflictIffPathExists | src/sync/sync/sync.go:161-197 | When every probe succeeds, there is no error, and a full sync is needed iff some URL's path exists under the other transport's root. |
| FullSync.PreviousRsyncLayoutForcesFullSync | src/sync/sync/sync.go:161-177 | An RRDP URL whose host directory exists under the rsync root gives (true, nil). |
| FanIn.CallRrdpAndRsync | src/sync/sync/sync.go:209-247 | A transport with no URLs starts as done, and at least one signal is consumed. The wait stops at the first prefix where every dispatched transport has reported, keeping each channel's last value. It blocks forever iff no prefix completes. Under the one-result-per-dispatched-transport protocol it consumes every signal, and each result is present iff its transport was dispatched. |
| FanIn.LastRrdpPresent | src/sync/sync/sync.go:236-238 | An RRDP result is recorded iff the RRDP channel delivered at least one value. |
| FanIn.LastRsyncPresent | src/sync/sync/sync.go:239-241 | An rsync result is recorded iff the rsync channel delivered at least one value. |
| FanIn.CountsOfPrefix | src/sync/sync/sync.go:235-242 | Every received value comes from exactly one of the two channels, and a prefix holds no more of either. |
| FanIn.WellBehavedCompletesAtEnd | src/sync/sync/sync.go:209-247 | Under the expected protocol, the last signal is the first point at which everything has reported. |
| FanIn.OnlyRrdpDispatchedWaitsForOneSignal | src/sync/sync/sync.go:213-229 | With only RRDP dispatched, a single RRDP result satisfies the protocol and completes the wait, with that result recorded for RRDP and none for rsync. |
| SyncStart.Start | src/sync/sync/sync.go:27-91 | Each early exit happens iff its cause holds: the log insert fails, getting the TALs fails, or no URL is planned. The reset is posted, with body `{"sysStyle":"fullsync", "syncStyle":"<style>"}`, iff the check answers anything but (false, nil). Transports are dispatched only on (false, nil), with the planned URL lists. Parse/validate is triggered only after the wait completed and the log update succeeded. The state written to the log carries each channel's last result up to the first point where every dispatched transport has reported, or up to the last signal when the wait never ends. |
| CrlDb.InsertRevokedRows | src/parsevalidate/db/crldb.go:132-145 | On success, exactly one child row per revoked certificate is appended, in order. Every row it adds references the given CRL id. The CRL table and the counter are untouched. |
| CrlDb.InsertRevokedRowsStopsAtFailure | src/parsevalidate/db/crldb.go:136-143 | A failing child INSERT stops the loop at the first failing entry: every earlier INSERT succeeded. The child table keeps the rows of the earlier entries, and the error is that INSERT's. |
| CrlDb.InsertRevokedRowsUpTo | src/parsevalidate/db/crldb.go:136-143 | When the INSERTs before entry k succeed and entry k's fails, the loop returns entry k's error, and the child table holds the rows of the entries before k. |
| CrlDb.InsertRevokedRowsError | src/parsevalidate/db/crldb.go:136-143 | The loop's error is that of the first failing child INSERT, in order, and there is none iff every INSERT succeeds. |
| CrlDb.InsertRevokedRowsSucceeds | src/parsevalidate/db/crldb.go:136-143 | The loop succeeds iff every one of its child INSERTs succeeds. |
| CrlDb.InsertCrl | src/parsevalidate/db/crldb.go:101-146 | On success, the CRL row is appended under the next auto-increment id, its children reference that id, and the counter advances by one. The counter never goes back. |
| CrlDb.InsertCrlError | src/parsevalidate/db/crldb.go:117-143 | insertCrl fails iff one of its statements fails: the CRL INSERT, the id read-back, then the child INSERTs in order. The error is the first failing statement's. |
| CrlDb.InsertCrlKeepsValid | src/parsevalidate/db/crldb.go:110-144 | Inserting a CRL keeps the storage invariant, even when it fails part-way: CRL ids stay below the counter, and every child row references an existing CRL. |
| CrlDb.WithoutCrlCounts | src/parsevalidate/db/crldb.go:91-96 | Deleting by id removes every row with that id and keeps every other row with its multiplicity. |
| CrlDb.WithoutChildren | src/parsevalidate/db/crldb.go:84-89 | Deleting by crlId removes every child row of that CRL and keeps all other rows with their multiplicity. |
| CrlDb.DelCrlById | src/parsevalidate/db/crldb.go:81-99 | It fails iff one of its two deletes fails. A failed child delete changes nothing. Once the child delete succeeds, exactly the children of that id are gone and every other child row keeps its multiplicity. On success, exactly the CRL rows with that id are gone, and every other CRL row keeps its multiplicity. If the second delete fails, the children are gone but the CRL row remains. The invariant is kept. |
| CrlDb.DelCrlByIdError | src/parsevalidate/db/crldb.go:84-97 | The error is that of the first failing delete: the child delete, then the CRL delete. |
| CrlDb.ValidWithoutChildren | src/parsevalidate/db/crldb.go:84-89 | Deleting child rows keeps every remaining child pointing at an existing CRL. |
| CrlDb.ValidWithoutCrl | src/parsevalidate/db/crldb.go:91-96 | Deleting a CRL row that no child references keeps the invariant. |
| CrlDb.FindCrlId | src/parsevalidate/db/crldb.go:67-73 | The lookup finds nothing iff no row is stored under the file path and name. Otherwise it returns the id of the first such row. |
| CrlDb.DelCrlByFile | src/parsevalidate/db/crldb.go:64-80 | A failed lookup returns its error and changes nothing. No matching row means success with nothing changed. Otherwise the call fails iff one of the two deletes by the matched id fails. On success no CRL row with that id and no child row referencing it remain, and every other CRL row keeps its multiplicity. Once the child delete succeeds, exactly the children of that id are gone and every other child row keeps its multiplicity. A failed child delete changes nothing. A failed CRL delete leaves the CRL rows but not the children. The invariant is kept throughout. |
| CrlDb.InsertAll | src/parsevalidate/db/crldb.go:23-29 | Runs insertCrl for each record in order and stops at the first failure. The counter never goes back; the lemmas below give the rows it adds and the error it returns. |
| CrlDb.InsertAllError | src/parsevalidate/db/crldb.go:23-29 | The loop fails iff one of its statements fails, with the first failing statement's error. Record k's statements use id base+k. |
| CrlDb.InsertAllErrorStep | src/parsevalidate/db/crldb.go:23-29 | The first record's statements come before the rest: if its insertCrl fails, that is the loop's error. Otherwise the loop's error is the rest's. |
| CrlDb.NewRowsAt | src/parsevalidate/db/crldb.go:23-29 | The k-th new CRL row is record k's, stored under id base+k. |
| CrlDb.InsertAllAdvancesCounter | src/parsevalidate/db/crldb.go:23-29 | A loop with no failure advances the auto-increment counter once per record. |
| CrlDb.InsertAllAppendsRows | src/parsevalidate/db/crldb.go:23-29 | A loop with no failure appends exactly one CRL row per record, in order, under consecutive ids. |
| CrlDb.InsertAllAppendsChildren | src/parsevalidate/db/crldb.go:23-29 | A loop with no failure appends exactly each record's child rows, in order, each referencing its own CRL's id. |
| CrlDb.InsertAllValid | src/parsevalidate/db/crldb.go:23-29 | The insert loop keeps the storage invariant, including when it stops at a failure. |
| CrlDb.AddCrls | src/parsevalidate/db/crldb.go:16-38 | All or nothing. It fails iff one of the loop's statements or the commit fails, with the first failing one's error. A failure leaves both tables' rows as before. On success, one row per record is appended under consecutive fresh ids, with all their children. |
| CrlDb.DeleteAll | src/parsevalidate/db/crldb.go:48-54 | After deleting each record's certId in order, exactly the rows with those ids and their children are gone. Every other row of either table keeps its multiplicity. |
| CrlDb.DeleteAllError | src/parsevalidate/db/crldb.go:48-54 | The loop fails iff one of its deletes fails, with the first failing delete's error. |
| CrlDb.DelCrls | src/parsevalidate/db/crldb.go:39-63 | All or nothing. A failed delete or commit leaves the tables as they were. On success, no row remains for any certId of the batch, and every other row of either table keeps its multiplicity. |
| CrlDb.DelCrlsError | src/parsevalidate/db/crldb.go:48-60 | It fails iff one of the loop's deletes or the commit fails, with the first failing one's error. |
| CrlDb.WithoutAbsentCrl | src/parsevalidate/db/crldb.go:91-96 | Deleting an id that no row has changes nothing. |
| CrlDb.WithoutAbsentChildren | src/parsevalidate/db/crldb.go:84-89 | Deleting children of an id that no child references changes nothing. |
| CrlDb.WithoutCrlAppend | src/parsevalidate/db/crldb.go:91-96 | Deleting by id acts row by row, so it distributes over concatenation. |
| CrlDb.WithoutChildrenAppend | src/parsevalidate/db/crldb.go:84-89 | Deleting children acts row by row, so it distributes over concatenation. |
| CrlDb.InsertThenDeleteRestoresRows | src/parsevalidate/db/crldb.go:81-146 | Inserting a CRL and then deleting it by its generated id restores both tables exactly, in order. |
| CrlDb.FreshIdUnreferenced | src/parsevalidate/db/crldb.go:117-130 | Under the invariant, the next auto-increment id is used by no row of either table. |
| CrlDb.ThreeRevokedCertsRoundTrip | src/parsevalidate/db/crldb.go:81-146 | A CRL with three revoked certificates adds three child rows, and deleting it by id leaves none. |
| SyncLogFileDb.FilterPending | src/parsevalidate/db/synclogfiledb.go:19-20 | The WHERE clause admits at most one record per row. The two lemmas below state which rows. |
| SyncLogFileDb.FilterPendingSound | src/parsevalidate/db/synclogfiledb.go:19-20 | Every admitted record comes from a row of this sync run that is not yet written to the object tables. |
| SyncLogFileDb.FilterPendingComplete | src/parsevalidate/db/synclogfiledb.go:19-20 | Every such row is admitted. |
| SyncLogFileDb.FilterPendingDistinct | src/parsevalidate/db/synclogfiledb.go:19-20 | A table whose row ids are distinct yields records with distinct ids. |
| SyncLogFileDb.InsertById | src/parsevalidate/db/synclogfiledb.go:21 | Inserting into an id-ordered sequence keeps it id-ordered and adds exactly the one record. |
| SyncLogFileDb.InsertByIdPermutes | src/parsevalidate/db/synclogfiledb.go:21 | The insertion adds exactly the one record, counting multiplicities. |
| SyncLogFileDb.SortById | src/parsevalidate/db/synclogfiledb.go:21 | `ORDER BY id`: the result is ordered by id and has the same records as the input. |
| SyncLogFileDb.SortByIdPermutes | src/parsevalidate/db/synclogfiledb.go:21 | Sorting is a permutation: every record keeps its multiplicity. |
| SyncLogFileDb.InsertByIdStrict | src/parsevalidate/db/synclogfiledb.go:21 | Inserting a record with a new id into a strictly id-ordered sequence keeps it strictly ordered. |
| SyncLogFileDb.SortByIdStrict | src/parsevalidate/db/synclogfiledb.go:21 | Records with distinct ids come out strictly ordered by id. |
| SyncLogFileDb.SelectPending | src/parsevalidate/db/synclogfiledb.go:19-21 | The query returns the admitted records ordered by id, whatever the storage order, as a permutation of them. |
| SyncLogFileDb.SelectPendingSound | src/parsevalidate/db/synclogfiledb.go:19-21 | Every selected record comes from a row of this sync run that is not yet written to the object tables. |
| SyncLogFileDb.SelectPendingComplete | src/parsevalidate/db/synclogfiledb.go:19-21 | Every such row is selected. |
| SyncLogFileDb.SelectPendingOrdered | src/parsevalidate/db/synclogfiledb.go:19-21 | With distinct row ids, the records come out strictly ordered by id. |
| SyncLogFileDb.StorageOrderIgnored | src/parsevalidate/db/synclogfiledb.go:19-21 | Two pending rows stored as ids 5, 3 are returned as 3, 5. |
| SyncLogFileDb.TableOf | src/parsevalidate/db/synclogfiledb.go:35-44 | cer, crl, mft and roa map to their own object tables. No other type has one. |
| SyncLogFileDb.ResolveCertIds | src/parsevalidate/db/synclogfiledb.go:28-57 | It succeeds iff every update/del lookup answers. On success, add records are unchanged, and other records get the id found, or stay as they were when none was found. On failure it returns the first failing lookup's error. |
| SyncLogFileDb.GetSyncLogFileModelsBySyncLogId | src/parsevalidate/db/synclogfiledb.go:14-62 | A failed select returns its error. Otherwise the result carries the run id and the selected records, resolved, ordered by id whatever the storage order, and strictly so when row ids are distinct. It succeeds iff the select and every lookup succeed. After a successful select, a failure carries the error of the first failing lookup. |
| SyncLogFileDb.AddRecordsKeepNoCertId | src/parsevalidate/db/synclogfiledb.go:31-34 | add records never receive a certId. |
| SyncLogFileDb.KnownTypeUsesItsTable | src/parsevalidate/db/synclogfiledb.go:35-46 | A record of a known type is looked up in its own table. |
| SyncLogFileDb.UnknownTypeReusesPreviousTable | src/parsevalidate/db/synclogfiledb.go:28-46 | A record of an unknown type is looked up in the table of the last earlier update/del record of a known type, or under the empty name if there is none. |
| SyncLogFileDb.TableInEffectSpec | src/parsevalidate/db/synclogfiledb.go:29-44 | The table name carried by the loop is that of the most recent update/del record of a known type, or empty if there is none. |
| SyncLogFileDb.RtrState | src/parsevalidate/db/synclogfiledb.go:70-73 | rtr is notYet iff the record is a ROA not being deleted, and notNeed otherwise. |
| XormDb.FirstFault | src/parsevalidate/db/crldb.go:117-143 | Statements run in order until one fails. The result is none iff no statement fails, and otherwise it is the first failing statement's error. |
| XormDb.FirstFaultAppend | src/parsevalidate/db/crldb.go:23-29 | Over two statement runs in sequence, the error is the first run's if it has one, and the second run's otherwise. |
| XormDb.NullString | src/parsevalidate/db/synclogfiledb.go:75 | An empty JSON string is written as NULL, and any other string as itself. |
| SyncLogFileDb.ApplyUpdate | src/parsevalidate/db/synclogfiledb.go:66-68 | The UPDATE changes only the row with that id and keeps every id. |
| SyncLogFileDb.UpdateSyncLogFilesJsonAllAndState | src/parsevalidate/db/synclogfiledb.go:64-84 | Row count and ids are preserved. It succeeds iff every record's UPDATE succeeds. |
| SyncLogFileDb.UpdateAllError | src/parsevalidate/db/synclogfiledb.go:69-83 | The error is that of the first failing UPDATE, in record order. |
| SyncLogFileDb.UpdateAllSucceeded | src/parsevalidate/db/synclogfiledb.go:66-83 | With no failing UPDATE, rows no record names are untouched. A named row ends `finished`, with the rtr state and NULL-or-JSON of the last record naming it. |
| SyncLogFileDb.UpdateAllStopsAtFailure | src/parsevalidate/db/synclogfiledb.go:75-81 | A failing UPDATE stops the loop with no rollback, at the first failing record: every earlier UPDATE succeeded. The rows are those of the successful run over the earlier records, and the error is that UPDATE's. |
| SyncLogFileDb.UpdateAllUpTo | src/parsevalidate/db/synclogfiledb.go:69-81 | When the UPDATEs before record k succeed and record k's fails, the loop returns record k's error, with the rows of the run over the first k records. |
| SyncLogFileDb.LastForCons | src/parsevalidate/db/synclogfiledb.go:69-82 | The last record naming an id is in the later records, or else is the first one. |
| SyncLogFileDb.LastForDistinct | src/parsevalidate/db/synclogfiledb.go:69-82 | With distinct ids, each record is the last one naming its id. |
| SyncLogFileDb.EachNamedRowFinished | src/parsevalidate/db/synclogfiledb.go:64-84 | With distinct ids and no failure, every row named by a record ends `finished`, with rtr notYet iff that record is a ROA not being deleted. |

## Left out

- HTTP calls: the posts to `/sys/initreset`, `/rrdp/start`, `/rsync/start` and `/parsevalidate/start` are fire-and-forget goroutines; they appear only as outcomes of `Start`.
- `getTals`, including its response parsing and its "no tal file" check (sync.go:93-119): its answer is a `Result<seq<TalModel>>` parameter of `Start`.
- `InsertSyncLogSyncStateStart` and `UpdateSyncLogSyncStateEnd` live in the sync service's database layer, which is not part of this model. They are parameters: the id or error of the insert, and the error of the update.
- Concurrency: goroutines, the global channels, their `init` and the `RrdpResult`/`RsyncResult` senders (sync.go:18-25, 252-261) are replaced by a sequence of signals in arrival order.
- FanIn.CallRrdpAndRsync: Go's `select` is nondeterministic; the model takes one arrival order per call rather than quantifying over the runtime's choices.
- FanIn.CallRrdpAndRsync: the function always returns a nil error, so the error branch of `Start` at sync.go:73-76 cannot be taken and is not modelled.
- Configuration, logging, JSON marshalling and time stamps (`StartTime`, `EndTime`, `updateTime`): the time is a string parameter of the CRL insert, and CRL JSON is the `CrlModel` value itself.
- `wg.Done` in `DelCrls` only signals the caller's wait group; it has no effect on the tables.
- The error of `xormdb.NewSession` is ignored by the code (crldb.go:17, 43); the model assumes a session is always obtained.
- The type assertion `CertModel.(model.CrlModel)` (crldb.go:104) panics on a non-CRL record; the model's record type holds a CRL directly.
- CrlDb.AddCrls: a failed commit (crldb.go:30-34) is returned without an explicit rollback; the model leaves the rows as they were before the call, which is what the deferred `session.Close` does to an uncommitted transaction. A partially applied commit is not modelled.
- CrlDb.DelCrls: a failed commit (crldb.go:56-60) is treated the same way as in `AddCrls`: the rows are as they were before the call, and a partially applied commit is not modelled.
- CrlDb.AddCrls: the auto-increment counter is kept after a rollback, as MySQL does; the model does not assume id reuse.
- CrlDb.FindCrlId: when several rows share a file path and name, the model returns the first in storage order; the database gives no order guarantee for `Get` without `ORDER BY`.
- SyncLogFileDb.ResolveCertIds: the object-table lookup is an oracle; a lookup in a table that does not exist (the empty name carried over before any known type) is whatever that oracle answers.
- SyncLogFileDb.GetSyncLogFileModelsBySyncLogId: `NewSyncLogFileModels` is in parse/validate's model package, which is not part of this model; the result just wraps the run id and the records.
- SyncLogFileDb.SortById: records with the same id keep their storage order, where `ORDER BY id` leaves their order unspecified. The table's schema is not part of this model. Assuming `id` is its key, as the `where f.id = ?` updates treat it, no two rows share an id and this order never arises.
- SyncLogFileDb.UpdateAllSucceeded: `json_replace` only overwrites paths already present in `state`; the model assumes `updateCertTable` and `rtr` exist in every row's state.
- The log row of a run redirected to a full reset, or ending in an error, keeps its `syncing` state; the model's outcome records no log update for those paths, which follows the code.

=== FILE: crl_db.dfy ===
/** Persistence of parsed CRLs: the `lab_rpki_crl` table and its child table
    `lab_rpki_crl_revoked_cert`. The two tables are sequences of rows in storage order, the
    auto-increment counter of `lab_rpki_crl` is `nextId`, and every SQL statement may fail
    as a fault oracle decides. A session's uncommitted changes are the `Tables` value it
    threads along; a rollback restores the rows of the snapshot taken at the start. */
module CrlDb {
  import opened Wrappers
  import opened XormDb

  /** One revoked certificate listed in a CRL. */
  datatype RevokedCertModel = RevokedCertModel(sn: string, revocationTime: string)

  /** A parsed CRL as the validator hands it over. */
  datatype CrlModel = CrlModel(
    crlNumber: string,
    thisUpdate: string,
    nextUpdate: string,
    hasExpired: string,
    aki: string,
    filePath: string,
    fileName: string,
    fileHash: string,
    revokedCertModels: seq<RevokedCertModel>)

  /** A sync-log file record carrying a parsed CRL. `certId` is the id of the existing
      `lab_rpki_crl` row it replaces or deletes (0 when none was resolved); `state` is its
      serialised state. */
  datatype SyncLogFileModel = SyncLogFileModel(id: nat, syncLogId: nat, certId: nat, crl: CrlModel, state: string)

  /** A row of `lab_rpki_crl`. `jsonAll` holds the CRL the JSON column serialises. */
  datatype CrlRow = CrlRow(
    id: nat,
    crlNumber: string,
    thisUpdate: string,
    nextUpdate: string,
    hasExpired: string,
    aki: Option<string>,
    filePath: string,
    fileName: string,
    fileHash: string,
    jsonAll: CrlModel,
    syncLogId: nat,
    syncLogFileId: nat,
    updateTime: string,
    state: Option<string>)

  /** A row of `lab_rpki_crl_revoked_cert`, pointing at its CRL through `crlId`. */
  datatype RevokedRow = RevokedRow(crlId: nat, sn: string, revocationTime: string)

  datatype Tables = Tables(crls: seq<CrlRow>, revoked: seq<RevokedRow>, nextId: nat)

  /** The statements the store issues, with the arguments that identify them. */
  datatype Stmt =
    | InsertCrlStmt(row: CrlRow)
    | LastInsertIdStmt(crlId: nat)
    | InsertRevokedStmt(revokedRow: RevokedRow)
    | DeleteRevokedStmt(crlId: nat)
    | DeleteCrlStmt(crlId: nat)
    | SelectCrlIdStmt(filePath: string, fileName: string)
    | CommitStmt

  /** The database's answer to each statement: `Some(error)` when it fails. */
  type Faults = Stmt -> Option<string>

  /** The session state after a step, and the error that ended it, if any. */
  datatype SessionResult = SessionResult(tables: Tables, err: Option<string>)

  predicate HasCrl(crls: seq<CrlRow>, id: nat) {
    exists i :: 0 <= i < |crls| && crls[i].id == id
  }

  /** The storage invariant: every CRL id is below the auto-increment counter, and every
      revoked-cert row points at an existing CRL row. */
  predicate Valid(t: Tables) {
    && (forall i :: 0 <= i < |t.crls| ==> t.crls[i].id < t.nextId)
    && (forall i :: 0 <= i < |t.revoked| ==> HasCrl(t.crls, t.revoked[i].crlId))
  }

  /** The `lab_rpki_crl` row written for a record, under the generated id. */
  function RowOf(id: nat, rec: SyncLogFileModel, now: string): CrlRow {
    var c := rec.crl;
    CrlRow(id, c.crlNumber, c.thisUpdate, c.nextUpdate, c.hasExpired, NullString(c.aki),
           c.filePath, c.fileName, c.fileHash, c, rec.syncLogId, rec.id, now, NullString(rec.state))
  }

  /** The child rows of a CRL, one per revoked certificate, in list order. */
  function ChildRows(crlId: nat, rcs: seq<RevokedCertModel>): (rows: seq<RevokedRow>)
    ensures |rows| == |rcs|
  {
    seq(|rcs|, k requires 0 <= k < |rcs| => RevokedRow(crlId, rcs[k].sn, rcs[k].revocationTime))
  }

  /** The child INSERTs, one per row, in order. */
  function RevokedStmts(rows: seq<RevokedRow>): (stmts: seq<Stmt>)
    ensures |stmts| == |rows|
  {
    seq(|rows|, k requires 0 <= k < |rows| => InsertRevokedStmt(rows[k]))
  }

  /** The statements `insertCrl` issues for a record stored under `id`, in order. */
  function InsertCrlStmts(id: nat, rec: SyncLogFileModel, now: string): seq<Stmt> {
    [InsertCrlStmt(RowOf(id, rec, now)), LastInsertIdStmt(id)] + RevokedStmts(ChildRows(id, rec.crl.revokedCertModels))
  }

  /** The statements of the insert loop of `AddCrls`, record k under id `base + k`. */
  function InsertAllStmts(base: nat, records: seq<SyncLogFileModel>, now: string): seq<Stmt>
    decreases |records|
  {
    if |records| == 0 then [] else InsertCrlStmts(base, records[0], now) + InsertAllStmts(base + 1, records[1..], now)
  }

  /** The statements `delCrlById` issues: the children first, then the CRL row. */
  function DeleteStmts(id: nat): seq<Stmt> {
    [DeleteRevokedStmt(id), DeleteCrlStmt(id)]
  }

  /** The statements of the delete loop of `DelCrls`, one pair per record's `certId`. */
  function DeleteAllStmts(records: seq<SyncLogFileModel>): seq<Stmt>
    decreases |records|
  {
    if |records| == 0 then [] else DeleteStmts(records[0].certId) + DeleteAllStmts(records[1..])
  }

  /** The inner loop of `insertCrl`: one INSERT per revoked certificate, stopping at the first
      failure. Only the child table changes; on success it gains exactly the child rows, and on
      a failure at entry `k` it holds the rows of the entries before `k`. */
  function InsertRevokedRows(t: Tables, crlId: nat, rcs: seq<RevokedCertModel>, faults: Faults): (r: SessionResult)
    ensures r.tables.crls == t.crls && r.tables.nextId == t.nextId
    ensures r.err.None? ==> r.tables.revoked == t.revoked + ChildRows(crlId, rcs)
    ensures |t.revoked| <= |r.tables.revoked| && r.tables.revoked[..|t.revoked|] == t.revoked
    ensures forall i :: |t.revoked| <= i < |r.tables.revoked| ==> r.tables.revoked[i].crlId == crlId
    decreases |rcs|
  {
    if |rcs| == 0 then SessionResult(t, None)
    else
      var row := RevokedRow(crlId, rcs[0].sn, rcs[0].revocationTime);
      match faults(InsertRevokedStmt(row))
      case Some(e) => SessionResult(t, Some(e))
      case None =>
        var t1 := t.(revoked := t.revoked + [row]);
        var r := InsertRevokedRows(t1, crlId, rcs[1..], faults);
        ChildRowsCons(crlId, rcs);
        assert r.tables.revoked[..|t.revoked|] == t1.revoked[..|t.revoked|];
        r
  }

  /** A failing child INSERT stops the loop: the child table holds the rows of the entries
      before the first failing one, and the error is that INSERT's. */
  lemma InsertRevokedRowsStopsAtFailure(t: Tables, crlId: nat, rcs: seq<RevokedCertModel>, faults: Faults)
    requires InsertRevokedRows(t, crlId, rcs, faults).err.Some?
    ensures exists k :: 0 <= k < |rcs|
              && InsertRevokedRows(t, crlId, rcs, faults).tables.revoked == t.revoked + ChildRows(crlId, rcs[..k])
              && InsertRevokedRows(t, crlId, rcs, faults).err == faults(InsertRevokedStmt(ChildRows(crlId, rcs)[k]))
              && forall j :: 0 <= j < k ==> faults(InsertRevokedStmt(ChildRows(crlId, rcs)[j])).None?
  {
    var k := InsertRevokedRowsFirstFailure(t, crlId, rcs, faults);
    InsertRevokedRowsUpTo(t, crlId, rcs, faults, k);
  }

  /** The index of the first failing child INSERT of a failed loop. */
  lemma InsertRevokedRowsFirstFailure(t: Tables, crlId: nat, rcs: seq<RevokedCertModel>, faults: Faults)
    returns (k: nat)
    requires InsertRevokedRows(t, crlId, rcs, faults).err.Some?
    ensures k < |rcs| && faults(InsertRevokedStmt(ChildRows(crlId, rcs)[k])) == InsertRevokedRows(t, crlId, rcs, faults).err
    ensures forall j :: 0 <= j < k ==> faults(InsertRevokedStmt(ChildRows(crlId, rcs)[j])).None?
  {
    var all := ChildRows(crlId, rcs);
    var stmts := RevokedStmts(all);
    InsertRevokedRowsError(t, crlId, rcs, faults);
    k :| 0 <= k < |stmts| && faults(stmts[k]) == FirstFault(stmts, faults)
         && forall j :: 0 <= j < k ==> faults(stmts[j]).None?;
    assert forall j :: 0 <= j <= k ==> stmts[j] == InsertRevokedStmt(all[j]);
  }

  /** The loop succeeds exactly when every one of its INSERTs does. */
  lemma InsertRevokedRowsSucceeds(t: Tables, crlId: nat, rcs: seq<RevokedCertModel>, faults: Faults)
    ensures InsertRevokedRows(t, crlId, rcs, faults).err.None?
            <==> forall k :: 0 <= k < |rcs| ==> faults(InsertRevokedStmt(ChildRows(crlId, rcs)[k])).None?
  {
    var all := ChildRows(crlId, rcs);
    InsertRevokedRowsError(t, crlId, rcs, faults);
    assert forall k :: 0 <= k < |rcs| ==> RevokedStmts(all)[k] == InsertRevokedStmt(all[k]);
  }

  /** When the INSERTs before entry `k` succeed and entry `k`'s fails, the loop ends there. */
  lemma {:induction false} InsertRevokedRowsUpTo(t: Tables, crlId: nat, rcs: seq<RevokedCertModel>, faults: Faults, k: nat)
    requires k < |rcs|
    requires forall j :: 0 <= j < k ==> faults(InsertRevokedStmt(ChildRows(crlId, rcs)[j])).None?
    requires faults(InsertRevokedStmt(ChildRows(crlId, rcs)[k])).Some?
    ensures InsertRevokedRows(t, crlId, rcs, faults).tables.revoked == t.revoked + ChildRows(crlId, rcs[..k])
    ensures InsertRevokedRows(t, crlId, rcs, faults).err == faults(InsertRevokedStmt(ChildRows(crlId, rcs)[k]))
    decreases k
  {
    var row := RevokedRow(crlId, rcs[0].sn, rcs[0].revocationTime);
    assert ChildRows(crlId, rcs)[0] == row;
    if k == 0 {
      assert ChildRows(crlId, rcs[..0]) == [];
    } else {
      var t1 := t.(revoked := t.revoked + [row]);
      assert forall j :: 0 <= j < k ==> ChildRows(crlId, rcs[1..])[j] == ChildRows(crlId, rcs)[j + 1];
      InsertRevokedRowsUpTo(t1, crlId, rcs[1..], faults, k - 1);
      assert t.revoked + ChildRows(crlId, rcs[..k]) == t1.revoked + ChildRows(crlId, rcs[1..][..k - 1]) by {
        var pre := rcs[..k];
        ChildRowsCons(crlId, pre);
        assert pre[1..] == rcs[1..][..k - 1];
      }
    }
  }

  /** The loop fails exactly when one of its INSERTs fails, with the first failing one's error. */
  lemma {:induction false} InsertRevokedRowsError(t: Tables, crlId: nat, rcs: seq<RevokedCertModel>, faults: Faults)
    ensures InsertRevokedRows(t, crlId, rcs, faults).err == FirstFault(RevokedStmts(ChildRows(crlId, rcs)), faults)
    decreases |rcs|
  {
    if |rcs| > 0 {
      var row := RevokedRow(crlId, rcs[0].sn, rcs[0].revocationTime);
      ChildRowsCons(crlId, rcs);
      assert RevokedStmts(ChildRows(crlId, rcs)) == [InsertRevokedStmt(row)] + RevokedStmts(ChildRows(crlId, rcs[1..]));
      FirstFaultCons(InsertRevokedStmt(row), RevokedStmts(ChildRows(crlId, rcs[1..])), faults);
      if faults(InsertRevokedStmt(row)).None? {
        InsertRevokedRowsError(t.(revoked := t.revoked + [row]), crlId, rcs[1..], faults);
      }
    }
  }

  lemma ChildRowsCons(crlId: nat, rcs: seq<RevokedCertModel>)
    requires |rcs| > 0
    ensures ChildRows(crlId, rcs) == [RevokedRow(crlId, rcs[0].sn, rcs[0].revocationTime)] + ChildRows(crlId, rcs[1..])
  {
  }

  /** The model of `insertCrl`. The CRL row is inserted under the next auto-increment id,
      the generated id is read back, and one child row per revoked certificate references it.
      Changes made before a failing statement stay in the session. */
  function InsertCrl(t: Tables, rec: SyncLogFileModel, now: string, faults: Faults): (r: SessionResult)
    ensures r.err.None? ==> r.tables.crls == t.crls + [RowOf(t.nextId, rec, now)]
    ensures r.err.None? ==> r.tables.revoked == t.revoked + ChildRows(t.nextId, rec.crl.revokedCertModels)
    ensures r.err.None? ==> r.tables.nextId == t.nextId + 1
    ensures r.tables.nextId >= t.nextId
  {
    var row := RowOf(t.nextId, rec, now);
    match faults(InsertCrlStmt(row))
    case Some(e) => SessionResult(t, Some(e))
    case None =>
      var crlId := t.nextId;
      var t1 := t.(crls := t.crls + [row], nextId := crlId + 1);
      match faults(LastInsertIdStmt(crlId))
      case Some(e) => SessionResult(t1, Some(e))
      case None => InsertRevokedRows(t1, crlId, rec.crl.revokedCertModels, faults)
  }

  /** `insertCrl` fails exactly when one of its statements fails, with the first failing one's
      error: the CRL INSERT, the read-back of the id, then the child INSERTs in order. */
  lemma InsertCrlError(t: Tables, rec: SyncLogFileModel, now: string, faults: Faults)
    ensures InsertCrl(t, rec, now, faults).err == FirstFault(InsertCrlStmts(t.nextId, rec, now), faults)
  {
    var row := RowOf(t.nextId, rec, now);
    var kids := RevokedStmts(ChildRows(t.nextId, rec.crl.revokedCertModels));
    var fa, fb := faults(InsertCrlStmt(row)), faults(LastInsertIdStmt(t.nextId));
    assert FirstFault(InsertCrlStmts(t.nextId, rec, now), faults)
           == if fa.Some? then fa else if fb.Some? then fb else FirstFault(kids, faults) by {
      assert InsertCrlStmts(t.nextId, rec, now) == [InsertCrlStmt(row)] + ([LastInsertIdStmt(t.nextId)] + kids);
      FirstFaultCons(InsertCrlStmt(row), [LastInsertIdStmt(t.nextId)] + kids, faults);
      FirstFaultCons(LastInsertIdStmt(t.nextId), kids, faults);
    }
    if fa.None? && fb.None? {
      var t1 := t.(crls := t.crls + [row], nextId := t.nextId + 1);
      InsertRevokedRowsError(t1, t.nextId, rec.crl.revokedCertModels, faults);
    }
  }

  /** `insertCrl` keeps the storage invariant, whether or not it fails part-way: the new row's
      id is below the advanced counter, and every child row references it. */
  lemma InsertCrlKeepsValid(t: Tables, rec: SyncLogFileModel, now: string, faults: Faults)
    ensures Valid(t) ==> Valid(InsertCrl(t, rec, now, faults).tables)
  {
    if Valid(t) {
      var row := RowOf(t.nextId, rec, now);
      if faults(InsertCrlStmt(row)).None? {
        var crlId := t.nextId;
        var t1 := t.(crls := t.crls + [row], nextId := crlId + 1);
        assert t1.crls[|t.crls|].id == crlId;
        assert forall i :: 0 <= i < |t.crls| ==> t1.crls[i] == t.crls[i];
        assert Valid(t1);
      }
    }
  }

  /** `delete from <table> where <column> = id` on the CRL table. */
  function WithoutCrl(crls: seq<CrlRow>, id: nat): seq<CrlRow>
    decreases |crls|
  {
    if |crls| == 0 then []
    else
      var rest := WithoutCrl(crls[1..], id);
      if crls[0].id == id then rest else [crls[0]] + rest
  }

  /** The delete removes every copy of a row with that id and keeps every other row as often
      as it was there. */
  lemma {:induction false} WithoutCrlCounts(crls: seq<CrlRow>, id: nat)
    ensures forall x :: multiset(WithoutCrl(crls, id))[x] == if x.id == id then 0 else multiset(crls)[x]
    ensures forall x :: x in WithoutCrl(crls, id) <==> x in crls && x.id != id
    decreases |crls|
  {
    if |crls| > 0 {
      WithoutCrlCounts(crls[1..], id);
      assert crls == [crls[0]] + crls[1..];
    }
  }

  /** `delete from lab_rpki_crl_revoked_cert where crlId = id`. */
  function WithoutChildren(revoked: seq<RevokedRow>, crlId: nat): (r: seq<RevokedRow>)
    ensures forall x :: multiset(r)[x] == if x.crlId == crlId then 0 else multiset(revoked)[x]
    ensures forall i :: 0 <= i < |r| ==> r[i].crlId != crlId && r[i] in revoked
    decreases |revoked|
  {
    if |revoked| == 0 then []
    else
      var rest := WithoutChildren(revoked[1..], crlId);
      assert revoked == [revoked[0]] + revoked[1..];
      assert forall x :: x in revoked[1..] ==> x in revoked;
      if revoked[0].crlId == crlId then rest else [revoked[0]] + rest
  }

  /** The model of `delCrlById`: first the child rows with `crlId = id`, then the CRL row.
      Nothing else changes. If the second statement fails the children are already gone from
      the session while the CRL row is still there. */
  function DelCrlById(t: Tables, id: nat, faults: Faults): (r: SessionResult)
    ensures r.tables.nextId == t.nextId
    ensures r.err.None? ==> !HasCrl(r.tables.crls, id)
    ensures r.err.None? ==> forall x :: x in r.tables.crls <==> x in t.crls && x.id != id
    ensures forall x :: multiset(r.tables.revoked)[x] == multiset(t.revoked)[x] || (x.crlId == id && multiset(r.tables.revoked)[x] == 0)
    ensures r.err.None? ==> forall i :: 0 <= i < |r.tables.revoked| ==> r.tables.revoked[i].crlId != id
    ensures r.err.Some? ==>
              r.tables.crls == t.crls
              && (r.tables.revoked == t.revoked || forall i :: 0 <= i < |r.tables.revoked| ==> r.tables.revoked[i].crlId != id)
    ensures r.err.Some? <==> faults(DeleteRevokedStmt(id)).Some? || faults(DeleteCrlStmt(id)).Some?
    ensures faults(DeleteRevokedStmt(id)).Some? ==> r.tables == t
    ensures faults(DeleteRevokedStmt(id)).None? ==>
              forall x :: multiset(r.tables.revoked)[x] == if x.crlId == id then 0 else multiset(t.revoked)[x]
    ensures r.err.None? ==> forall x :: multiset(r.tables.crls)[x] == if x.id == id then 0 else multiset(t.crls)[x]
    ensures Valid(t) ==> Valid(r.tables)
  {
    match faults(DeleteRevokedStmt(id))
    case Some(e) => SessionResult(t, Some(e))
    case None =>
      var t1 := t.(revoked := WithoutChildren(t.revoked, id));
      ValidWithoutChildren(t, id);
      match faults(DeleteCrlStmt(id))
      case Some(e) => SessionResult(t1, Some(e))
      case None =>
        var t2 := t1.(crls := WithoutCrl(t1.crls, id));
        WithoutCrlCounts(t1.crls, id);
        ValidWithoutCrl(t1, id);
        SessionResult(t2, None)
  }

  /** A successful `DelCrlById` ran both deletes. */
  lemma DelCrlByIdSucceeded(t: Tables, id: nat, faults: Faults)
    requires DelCrlById(t, id, faults).err.None?
    ensures DelCrlById(t, id, faults).tables
            == t.(revoked := WithoutChildren(t.revoked, id), crls := WithoutCrl(t.crls, id))
  {
  }

  /** Removing child rows keeps every remaining one pointing at an existing CRL. */
  lemma ValidWithoutChildren(t: Tables, id: nat)
    ensures Valid(t) ==> Valid(t.(revoked := WithoutChildren(t.revoked, id)))
  {
    if !Valid(t) {
      return;
    }
    var t1 := t.(revoked := WithoutChildren(t.revoked, id));
    forall i | 0 <= i < |t1.revoked|
      ensures HasCrl(t1.crls, t1.revoked[i].crlId)
    {
      var k :| 0 <= k < |t.revoked| && t.revoked[k] == t1.revoked[i];
    }
  }

  /** Removing a CRL row no child row points at keeps the invariant. */
  lemma ValidWithoutCrl(t: Tables, id: nat)
    requires forall i :: 0 <= i < |t.revoked| ==> t.revoked[i].crlId != id
    ensures Valid(t) ==> Valid(t.(crls := WithoutCrl(t.crls, id)))
  {
    if !Valid(t) {
      return;
    }
    var t2 := t.(crls := WithoutCrl(t.crls, id));
    WithoutCrlCounts(t.crls, id);
    forall i | 0 <= i < |t2.crls|
      ensures t2.crls[i].id < t2.nextId
    {
      assert t2.crls[i] in t.crls;
    }
    forall i | 0 <= i < |t2.revoked|
      ensures HasCrl(t2.crls, t2.revoked[i].crlId)
    {
      var c := t2.revoked[i].crlId;
      var k :| 0 <= k < |t.crls| && t.crls[k].id == c;
      assert t.crls[k] in t2.crls;
    }
  }

  /** The first row in storage order stored under (filePath, fileName): the row `Get` returns. */
  function FindCrlId(crls: seq<CrlRow>, filePath: string, fileName: string): (r: Option<nat>)
    ensures r.None? <==> forall i :: 0 <= i < |crls| ==> !(crls[i].filePath == filePath && crls[i].fileName == fileName)
    ensures r.Some? ==>
              exists i :: 0 <= i < |crls| && crls[i].id == r.value
                && crls[i].filePath == filePath && crls[i].fileName == fileName
                && (forall j :: 0 <= j < i ==> !(crls[j].filePath == filePath && crls[j].fileName == fileName))
    decreases |crls|
  {
    if |crls| == 0 then None
    else if crls[0].filePath == filePath && crls[0].fileName == fileName then Some(crls[0].id)
    else
      var r := FindCrlId(crls[1..], filePath, fileName);
      assert forall i :: 0 < i < |crls| ==> crls[1..][i - 1] == crls[i];
      r
  }

  /** `delCrlById` fails exactly when one of its two statements fails, with the first failing
      one's error. */
  lemma DelCrlByIdError(t: Tables, id: nat, faults: Faults)
    ensures DelCrlById(t, id, faults).err == FirstFault(DeleteStmts(id), faults)
  {
    FirstFaultCons(DeleteRevokedStmt(id), [DeleteCrlStmt(id)], faults);
    FirstFaultCons(DeleteCrlStmt(id), [], faults);
  }

  /** The model of `DelCrlByFile`, run inside the caller's session: look up the CRL stored under
      (filePath, fileName); when there is none, succeed without changing anything; otherwise
      delete it and its children by id. */
  function DelCrlByFile(t: Tables, filePath: string, fileName: string, faults: Faults): (r: SessionResult)
    ensures faults(SelectCrlIdStmt(filePath, fileName)).Some? ==>
              r == SessionResult(t, faults(SelectCrlIdStmt(filePath, fileName)))
    ensures faults(SelectCrlIdStmt(filePath, fileName)).None?
            && (forall i :: 0 <= i < |t.crls| ==> !(t.crls[i].filePath == filePath && t.crls[i].fileName == fileName)) ==>
              r == SessionResult(t, None)
    ensures faults(SelectCrlIdStmt(filePath, fileName)).None? && FindCrlId(t.crls, filePath, fileName).Some? ==>
              var id := FindCrlId(t.crls, filePath, fileName).value;
              && (r.err.Some? <==> faults(DeleteRevokedStmt(id)).Some? || faults(DeleteCrlStmt(id)).Some?)
              && (r.err.None? ==>
                    && !HasCrl(r.tables.crls, id)
                    && (forall x :: x in r.tables.crls <==> x in t.crls && x.id != id)
                    && (forall i :: 0 <= i < |r.tables.revoked| ==> r.tables.revoked[i].crlId != id)
                    && forall x :: multiset(r.tables.crls)[x] == if x.id == id then 0 else multiset(t.crls)[x])
              && (r.err.Some? ==> r.tables.crls == t.crls)
              && (faults(DeleteRevokedStmt(id)).None? ==>
                    forall x :: multiset(r.tables.revoked)[x] == if x.crlId == id then 0 else multiset(t.revoked)[x])
              && (faults(DeleteRevokedStmt(id)).Some? ==> r == SessionResult(t, faults(DeleteRevokedStmt(id))))
              && (faults(DeleteRevokedStmt(id)).None? && faults(DeleteCrlStmt(id)).Some? ==>
                    r.err == faults(DeleteCrlStmt(id))
                    && forall i :: 0 <= i < |r.tables.revoked| ==> r.tables.revoked[i].crlId != id)
    ensures Valid(t) ==> Valid(r.tables)
  {
    match faults(SelectCrlIdStmt(filePath, fileName))
    case Some(e) => SessionResult(t, Some(e))
    case None =>
      match FindCrlId(t.crls, filePath, fileName)
      case None => SessionResult(t, None)
      case Some(crlId) => DelCrlById(t, crlId, faults)
  }

  /** The rows `AddCrls` adds to `lab_rpki_crl`, one per record, under consecutive ids from `base`. */
  function NewRows(base: nat, records: seq<SyncLogFileModel>, now: string): (rows: seq<CrlRow>)
    ensures |rows| == |records|
    decreases |records|
  {
    if |records| == 0 then [] else [RowOf(base, records[0], now)] + NewRows(base + 1, records[1..], now)
  }

  /** Record k's row is stored under id `base + k`. */
  lemma {:induction false} NewRowsAt(base: nat, records: seq<SyncLogFileModel>, now: string, k: nat)
    requires k < |records|
    ensures NewRows(base, records, now)[k] == RowOf(base + k, records[k], now)
    ensures NewRows(base, records, now)[k].id == base + k
    decreases k
  {
    if k > 0 {
      NewRowsAt(base + 1, records[1..], now, k - 1);
    }
  }

  /** The child rows `AddCrls` adds: those of record k reference id `base + k`. */
  function AllChildren(base: nat, records: seq<SyncLogFileModel>): seq<RevokedRow>
    decreases |records|
  {
    if |records| == 0 then []
    else ChildRows(base, records[0].crl.revokedCertModels) + AllChildren(base + 1, records[1..])
  }

  /** The loop of `AddCrls` inside its session: `insertCrl` for each record in order, stopping at
      the first failure. */
  function InsertAll(t: Tables, records: seq<SyncLogFileModel>, now: string, faults: Faults): (r: SessionResult)
    ensures r.tables.nextId >= t.nextId
    decreases |records|
  {
    if |records| == 0 then SessionResult(t, None)
    else
      var r0 := InsertCrl(t, records[0], now, faults);
      if r0.err.Some? then r0 else InsertAll(r0.tables, records[1..], now, faults)
  }

  /** The loop fails exactly when one of its statements fails, with the first failing one's
      error; record k's statements use id `t.nextId + k`. */
  lemma {:induction false} InsertAllError(t: Tables, records: seq<SyncLogFileModel>, now: string, faults: Faults)
    ensures InsertAll(t, records, now, faults).err == FirstFault(InsertAllStmts(t.nextId, records, now), faults)
    decreases |records|
  {
    if |records| == 0 {
      assert InsertAllStmts(t.nextId, records, now) == [];
    } else {
      var r0 := InsertCrl(t, records[0], now, faults);
      assert r0.err.None? ==> InsertAll(r0.tables, records[1..], now, faults).err
                              == FirstFault(InsertAllStmts(t.nextId + 1, records[1..], now), faults) by {
        if r0.err.None? {
          InsertAllError(r0.tables, records[1..], now, faults);
        }
      }
      InsertAllErrorStep(t, records, now, faults);
    }
  }

  /** One step of `InsertAllError`: the first record's statements come first in the loop's list. */
  lemma InsertAllErrorStep(t: Tables, records: seq<SyncLogFileModel>, now: string, faults: Faults)
    requires |records| > 0
    requires InsertCrl(t, records[0], now, faults).err.None? ==>
               InsertAll(InsertCrl(t, records[0], now, faults).tables, records[1..], now, faults).err
               == FirstFault(InsertAllStmts(t.nextId + 1, records[1..], now), faults)
    ensures InsertAll(t, records, now, faults).err == FirstFault(InsertAllStmts(t.nextId, records, now), faults)
  {
    var first := InsertCrlStmts(t.nextId, records[0], now);
    var rest := InsertAllStmts(t.nextId + 1, records[1..], now);
    InsertCrlError(t, records[0], now, faults);
    FirstFaultAppend(first, rest, faults);
  }

  /** A loop with no failing statement advances the counter once per record. */
  lemma {:induction false} InsertAllAdvancesCounter(t: Tables, records: seq<SyncLogFileModel>, now: string, faults: Faults)
    requires InsertAll(t, records, now, faults).err.None?
    ensures InsertAll(t, records, now, faults).tables.nextId == t.nextId + |records|
    decreases |records|
  {
    if |records| > 0 {
      var t1 := InsertCrl(t, records[0], now, faults).tables;
      InsertAllAdvancesCounter(t1, records[1..], now, faults);
    }
  }

  /** A loop with no failing statement appends record k's CRL row under id `base + k`. */
  lemma {:induction false} InsertAllAppendsRows(t: Tables, records: seq<SyncLogFileModel>, now: string, faults: Faults)
    requires InsertAll(t, records, now, faults).err.None?
    ensures InsertAll(t, records, now, faults).tables.crls == t.crls + NewRows(t.nextId, records, now)
    decreases |records|
  {
    if |records| > 0 {
      var r0 := InsertCrl(t, records[0], now, faults);
      var t1 := r0.tables;
      var rest := records[1..];
      InsertAllAppendsRows(t1, rest, now, faults);
      var row := RowOf(t.nextId, records[0], now);
      assert (t.crls + [row]) + NewRows(t.nextId + 1, rest, now) == t.crls + ([row] + NewRows(t.nextId + 1, rest, now));
    }
  }

  /** A loop with no failing statement appends record k's child rows, referencing `base + k`. */
  lemma {:induction false} InsertAllAppendsChildren(t: Tables, records: seq<SyncLogFileModel>, now: string, faults: Faults)
    requires InsertAll(t, records, now, faults).err.None?
    ensures InsertAll(t, records, now, faults).tables.revoked == t.revoked + AllChildren(t.nextId, records)
    decreases |records|
  {
    if |records| > 0 {
      var r0 := InsertCrl(t, records[0], now, faults);
      assert r0.err.None?;
      var t1 := r0.tables;
      var rest := records[1..];
      InsertAllAppendsChildren(t1, rest, now, faults);
      var kids := ChildRows(t.nextId, records[0].crl.revokedCertModels);
      assert t1.revoked == t.revoked + kids && t1.nextId == t.nextId + 1;
      assert (t.revoked + kids) + AllChildren(t.nextId + 1, rest) == t.revoked + (kids + AllChildren(t.nextId + 1, rest));
    }
  }

  /** The loop keeps the storage invariant, whether or not it fails part-way. */
  lemma {:induction false} InsertAllValid(t: Tables, records: seq<SyncLogFileModel>, now: string, faults: Faults)
    ensures Valid(t) ==> Valid(InsertAll(t, records, now, faults).tables)
    decreases |records|
  {
    if Valid(t) && |records| > 0 {
      var r0 := InsertCrl(t, records[0], now, faults);
      InsertCrlKeepsValid(t, records[0], now, faults);
      if r0.err.None? {
        InsertAllValid(r0.tables, records[1..], now, faults);
      }
    }
  }

  /** The model of `AddCrls`: all records inserted in one session, all-or-nothing. Any failed
      insert or commit rolls the rows back to their state before the call; on success the CRL
      table gains exactly one row per record under consecutive fresh ids and the child table
      exactly their revoked-cert rows. The auto-increment counter is not rolled back. */
  function AddCrls(t: Tables, records: seq<SyncLogFileModel>, now: string, faults: Faults): (r: SessionResult)
    ensures r.err.Some? ==> r.tables.crls == t.crls && r.tables.revoked == t.revoked
    ensures r.err.None? ==> r.tables.crls == t.crls + NewRows(t.nextId, records, now)
    ensures r.err.None? ==> r.tables.revoked == t.revoked + AllChildren(t.nextId, records)
    ensures r.err.None? ==> |r.tables.crls| == |t.crls| + |records|
    ensures r.err == FirstFault(InsertAllStmts(t.nextId, records, now) + [CommitStmt], faults)
    ensures Valid(t) ==> Valid(r.tables)
  {
    InsertAllError(t, records, now, faults);
    FirstFaultAppend(InsertAllStmts(t.nextId, records, now), [CommitStmt], faults);
    var s := InsertAll(t, records, now, faults);
    if s.err.Some? then SessionResult(s.tables.(crls := t.crls, revoked := t.revoked), s.err)
    else
      InsertAllAppendsRows(t, records, now, faults);
      InsertAllAppendsChildren(t, records, now, faults);
      InsertAllValid(t, records, now, faults);
      match faults(CommitStmt)
      case Some(e) => SessionResult(s.tables.(crls := t.crls, revoked := t.revoked), Some(e))
      case None => s
  }

  function CertIds(records: seq<SyncLogFileModel>): set<nat> {
    set k | 0 <= k < |records| :: records[k].certId
  }

  /** The loop of `DelCrls` inside its session: `delCrlById` on each record's `certId` in order,
      stopping at the first failure. */
  function DeleteAll(t: Tables, records: seq<SyncLogFileModel>, faults: Faults): (r: SessionResult)
    ensures r.tables.nextId == t.nextId
    ensures r.err.None? ==> forall x :: x in r.tables.crls <==> x in t.crls && x.id !in CertIds(records)
    ensures r.err.None? ==>
              forall x :: multiset(r.tables.crls)[x] == if x.id in CertIds(records) then 0 else multiset(t.crls)[x]
    ensures r.err.None? ==>
              forall x :: multiset(r.tables.revoked)[x] == if x.crlId in CertIds(records) then 0 else multiset(t.revoked)[x]
    ensures Valid(t) ==> Valid(r.tables)
    decreases |records|
  {
    if |records| == 0 then SessionResult(t, None)
    else
      var r0 := DelCrlById(t, records[0].certId, faults);
      if r0.err.Some? then r0
      else
        var r := DeleteAll(r0.tables, records[1..], faults);
        assert CertIds(records) == {records[0].certId} + CertIds(records[1..]) by {
          forall c | c in CertIds(records) ensures c in {records[0].certId} + CertIds(records[1..]) {
            var k :| 0 <= k < |records| && records[k].certId == c;
            if k > 0 { assert records[1..][k - 1] == records[k]; }
          }
          forall c | c in CertIds(records[1..]) ensures c in CertIds(records) {
            var k :| 0 <= k < |records[1..]| && records[1..][k].certId == c;
            assert records[k + 1].certId == c;
          }
        }
        r
  }

  /** The delete loop fails exactly when one of its statements fails, with the first failing
      one's error: record k contributes the two deletes for its `certId`. */
  lemma {:induction false} DeleteAllError(t: Tables, records: seq<SyncLogFileModel>, faults: Faults)
    ensures DeleteAll(t, records, faults).err == FirstFault(DeleteAllStmts(records), faults)
    decreases |records|
  {
    if |records| == 0 {
      assert DeleteAllStmts(records) == [];
    } else {
      var r0 := DelCrlById(t, records[0].certId, faults);
      assert r0.err.None? ==> DeleteAll(r0.tables, records[1..], faults).err
                              == FirstFault(DeleteAllStmts(records[1..]), faults) by {
        if r0.err.None? {
          DeleteAllError(r0.tables, records[1..], faults);
        }
      }
      DelCrlByIdError(t, records[0].certId, faults);
      FirstFaultAppend(DeleteStmts(records[0].certId), DeleteAllStmts(records[1..]), faults);
    }
  }

  /** The model of `DelCrls`: every record's CRL and its children are deleted in one session,
      all-or-nothing. Any failed delete or commit rolls the rows back to their state before the
      call. On success no row is left for any `certId` of the batch and every other row stays. */
  function DelCrls(t: Tables, records: seq<SyncLogFileModel>, faults: Faults): (r: SessionResult)
    ensures r.err.Some? ==> r.tables == t
    ensures r.err.None? ==> forall x :: x in r.tables.crls <==> x in t.crls && x.id !in CertIds(records)
    ensures r.err.None? ==>
              forall x :: multiset(r.tables.crls)[x] == if x.id in CertIds(records) then 0 else multiset(t.crls)[x]
    ensures r.err.None? ==>
              forall x :: multiset(r.tables.revoked)[x] == if x.crlId in CertIds(records) then 0 else multiset(t.revoked)[x]
    ensures Valid(t) ==> Valid(r.tables)
  {
    var s := DeleteAll(t, records, faults);
    if s.err.Some? then SessionResult(t, s.err)
    else
      match faults(CommitStmt)
      case Some(e) => SessionResult(t, Some(e))
      case None => s
  }

  /** `DelCrls` fails exactly when a delete of the loop or the commit fails, with the first
      failing statement's error. */
  lemma DelCrlsError(t: Tables, records: seq<SyncLogFileModel>, faults: Faults)
    ensures DelCrls(t, records, faults).err == FirstFault(DeleteAllStmts(records) + [CommitStmt], faults)
  {
    DeleteAllError(t, records, faults);
    FirstFaultAppend(DeleteAllStmts(records), [CommitStmt], faults);
    FirstFaultCons(CommitStmt, [], faults);
  }

  /** Deleting a CRL that no row has leaves the CRL table as it is. */
  lemma {:induction false} WithoutAbsentCrl(crls: seq<CrlRow>, id: nat)
    requires !HasCrl(crls, id)
    ensures WithoutCrl(crls, id) == crls
    decreases |crls|
  {
    if |crls| > 0 {
      assert !HasCrl(crls[1..], id) by {
        forall i | 0 <= i < |crls[1..]| ensures crls[1..][i].id != id {
          assert crls[1..][i] == crls[i + 1];
        }
      }
      WithoutAbsentCrl(crls[1..], id);
      assert crls == [crls[0]] + crls[1..];
    }
  }

  /** Deleting the children of a CRL that no child row references leaves the table as it is. */
  lemma {:induction false} WithoutAbsentChildren(revoked: seq<RevokedRow>, crlId: nat)
    requires forall i :: 0 <= i < |revoked| ==> revoked[i].crlId != crlId
    ensures WithoutChildren(revoked, crlId) == revoked
    decreases |revoked|
  {
    if |revoked| > 0 {
      WithoutAbsentChildren(revoked[1..], crlId);
      assert revoked == [revoked[0]] + revoked[1..];
    }
  }

  lemma {:induction false} WithoutCrlAppend(a: seq<CrlRow>, b: seq<CrlRow>, id: nat)
    ensures WithoutCrl(a + b, id) == WithoutCrl(a, id) + WithoutCrl(b, id)
    decreases |a|
  {
    if |a| == 0 {
      assert a + b == b;
    } else {
      assert (a + b)[1..] == a[1..] + b;
      WithoutCrlAppend(a[1..], b, id);
    }
  }

  lemma {:induction false} WithoutChildrenAppend(a: seq<RevokedRow>, b: seq<RevokedRow>, crlId: nat)
    ensures WithoutChildren(a + b, crlId) == WithoutChildren(a, crlId) + WithoutChildren(b, crlId)
    decreases |a|
  {
    if |a| == 0 {
      assert a + b == b;
    } else {
      assert (a + b)[1..] == a[1..] + b;
      WithoutChildrenAppend(a[1..], b, crlId);
    }
  }

  /** Round trip: inserting a CRL and then deleting it by its generated id gives back exactly
      the rows the tables had before, in the same order. */
  lemma InsertThenDeleteRestoresRows(t: Tables, rec: SyncLogFileModel, now: string, faults: Faults)
    requires Valid(t)
    requires InsertCrl(t, rec, now, faults).err.None?
    requires DelCrlById(InsertCrl(t, rec, now, faults).tables, t.nextId, faults).err.None?
    ensures DelCrlById(InsertCrl(t, rec, now, faults).tables, t.nextId, faults).tables.crls == t.crls
    ensures DelCrlById(InsertCrl(t, rec, now, faults).tables, t.nextId, faults).tables.revoked == t.revoked
  {
    var id := t.nextId;
    var t1 := InsertCrl(t, rec, now, faults).tables;
    var children := ChildRows(id, rec.crl.revokedCertModels);
    assert t1.crls == t.crls + [RowOf(id, rec, now)];
    assert t1.revoked == t.revoked + children;
    DelCrlByIdSucceeded(t1, id, faults);
    FreshIdUnreferenced(t);
    WithoutCrlAppend(t.crls, [RowOf(id, rec, now)], id);
    WithoutAbsentCrl(t.crls, id);
    assert WithoutCrl([RowOf(id, rec, now)], id) == [];
    WithoutChildrenAppend(t.revoked, children, id);
    WithoutAbsentChildren(t.revoked, id);
    WithoutOwnChildren(id, rec.crl.revokedCertModels);
  }

  /** Under the invariant the next id is not yet used by any row of either table. */
  lemma FreshIdUnreferenced(t: Tables)
    requires Valid(t)
    ensures !HasCrl(t.crls, t.nextId)
    ensures forall i :: 0 <= i < |t.revoked| ==> t.revoked[i].crlId != t.nextId
  {
  }

  /** Deleting a CRL's children removes every row inserted for it. */
  lemma WithoutOwnChildren(crlId: nat, rcs: seq<RevokedCertModel>)
    ensures WithoutChildren(ChildRows(crlId, rcs), crlId) == []
  {
  }

  /** A CRL with three revoked certificates, inserted and deleted by its id, leaves no row of it
      in either table. */
  lemma ThreeRevokedCertsRoundTrip(t: Tables, rec: SyncLogFileModel, now: string, faults: Faults)
    requires Valid(t) && |rec.crl.revokedCertModels| == 3
    requires InsertCrl(t, rec, now, faults).err.None?
    requires DelCrlById(InsertCrl(t, rec, now, faults).tables, t.nextId, faults).err.None?
    ensures |InsertCrl(t, rec, now, faults).tables.revoked| == |t.revoked| + 3
    ensures !HasCrl(DelCrlById(InsertCrl(t, rec, now, faults).tables, t.nextId, faults).tables.crls, t.nextId)
    ensures forall x :: x in DelCrlById(InsertCrl(t, rec, now, faults).tables, t.nextId, faults).tables.revoked ==> x.crlId != t.nextId
  {
    InsertThenDeleteRestoresRows(t, rec, now, faults);
  }
}

=== FILE: fan_in.dfy ===
/** The wait of a sync run for its transports. The two result channels are read by a
    `select` in a loop; the order in which results arrive is given as a sequence of signals,
    so the concurrent wait becomes a fold over that sequence. */
module FanIn {
  import opened Wrappers

  /** The payload a transport service reports when it finishes; opaque to the sync service. */
  datatype SyncResult = SyncResult(payload: string)

  /** One value taken by the `select`: from the RRDP or from the rsync result channel. */
  datatype Signal = RrdpSignal(result: SyncResult) | RsyncSignal(result: SyncResult)

  /** The outcome of the wait for a given arrival order. `Finished` after `consumed` signals;
      `Blocked` when the signals run out first, where the real loop waits forever. A result
      never received is `None`, Go's zero value. */
  datatype FanInOutcome =
    | Finished(rrdpResult: Option<SyncResult>, rsyncResult: Option<SyncResult>, consumed: nat)
    | Blocked(rrdpResult: Option<SyncResult>, rsyncResult: Option<SyncResult>)

  predicate HasRrdp(received: seq<Signal>) {
    exists i :: 0 <= i < |received| && received[i].RrdpSignal?
  }

  predicate HasRsync(received: seq<Signal>) {
    exists i :: 0 <= i < |received| && received[i].RsyncSignal?
  }

  /** Every dispatched transport has reported in `received`; a transport with no URLs was
      never dispatched and counts as done. */
  predicate AllReported(rrdpUrls: seq<string>, rsyncUrls: seq<string>, received: seq<Signal>) {
    && (|rrdpUrls| == 0 || HasRrdp(received))
    && (|rsyncUrls| == 0 || HasRsync(received))
  }

  /** The most recent RRDP result in `received`, if any. */
  function LastRrdp(received: seq<Signal>): Option<SyncResult> {
    if |received| == 0 then None
    else if received[|received| - 1].RrdpSignal? then Some(received[|received| - 1].result)
    else LastRrdp(received[..|received| - 1])
  }

  /** The most recent rsync result in `received`, if any. */
  function LastRsync(received: seq<Signal>): Option<SyncResult> {
    if |received| == 0 then None
    else if received[|received| - 1].RsyncSignal? then Some(received[|received| - 1].result)
    else LastRsync(received[..|received| - 1])
  }

  function CountRrdp(received: seq<Signal>): nat {
    if |received| == 0 then 0
    else CountRrdp(received[..|received| - 1]) + (if received[|received| - 1].RrdpSignal? then 1 else 0)
  }

  function CountRsync(received: seq<Signal>): nat {
    if |received| == 0 then 0
    else CountRsync(received[..|received| - 1]) + (if received[|received| - 1].RsyncSignal? then 1 else 0)
  }

  /** The protocol the transports are expected to follow: exactly one result from each
      dispatched transport, none from a transport that was not dispatched, and at least one
      transport dispatched. */
  predicate WellBehaved(rrdpUrls: seq<string>, rsyncUrls: seq<string>, signals: seq<Signal>) {
    && (|rrdpUrls| > 0 || |rsyncUrls| > 0)
    && CountRrdp(signals) == (if |rrdpUrls| > 0 then 1 else 0)
    && CountRsync(signals) == (if |rsyncUrls| > 0 then 1 else 0)
  }

  /** The model of the dispatch flags and the `for { select }` loop of `callRrdpAndRsync`. A
      transport with no URLs starts with its end flag set; every received signal records its
      result and sets its flag; the exit test follows the `select`, so at least one signal is
      always consumed. The loop stops at the first point where all dispatched transports have
      reported, and each result field holds the last value from its own channel. */
  method CallRrdpAndRsync(rrdpUrls: seq<string>, rsyncUrls: seq<string>, signals: seq<Signal>)
    returns (out: FanInOutcome)
    ensures out.Finished? ==> 1 <= out.consumed <= |signals|
    ensures out.Finished? ==> AllReported(rrdpUrls, rsyncUrls, signals[..out.consumed])
    ensures out.Finished? ==>
              forall j :: 1 <= j < out.consumed ==> !AllReported(rrdpUrls, rsyncUrls, signals[..j])
    ensures out.Finished? ==>
              out.rrdpResult == LastRrdp(signals[..out.consumed]) && out.rsyncResult == LastRsync(signals[..out.consumed])
    ensures out.Blocked? ==> forall j :: 1 <= j <= |signals| ==> !AllReported(rrdpUrls, rsyncUrls, signals[..j])
    ensures out.Blocked? ==> out.rrdpResult == LastRrdp(signals) && out.rsyncResult == LastRsync(signals)
    ensures WellBehaved(rrdpUrls, rsyncUrls, signals) ==>
              out.Finished? && out.consumed == |signals|
              && (out.rrdpResult.Some? <==> |rrdpUrls| > 0)
              && (out.rsyncResult.Some? <==> |rsyncUrls| > 0)
  {
    var rrdpEnd := false;
    var rsyncEnd := false;
    // Posting the URL lists to the transport services is fire-and-forget and has no effect here.
    if |rrdpUrls| == 0 {
      rrdpEnd := true;
    }
    if |rsyncUrls| == 0 {
      rsyncEnd := true;
    }
    var rrdpResult: Option<SyncResult> := None;
    var rsyncResult: Option<SyncResult> := None;
    var n := 0;
    if WellBehaved(rrdpUrls, rsyncUrls, signals) {
      WellBehavedCompletesAtEnd(rrdpUrls, rsyncUrls, signals);
    }
    while n < |signals|
      invariant 0 <= n <= |signals|
      invariant rrdpEnd == (|rrdpUrls| == 0 || HasRrdp(signals[..n]))
      invariant rsyncEnd == (|rsyncUrls| == 0 || HasRsync(signals[..n]))
      invariant rrdpResult == LastRrdp(signals[..n]) && rsyncResult == LastRsync(signals[..n])
      invariant forall j :: 1 <= j <= n ==> !AllReported(rrdpUrls, rsyncUrls, signals[..j])
    {
      var s := signals[n];
      match s {
        case RrdpSignal(r) =>
          rrdpResult := Some(r);
          rrdpEnd := true;
        case RsyncSignal(r) =>
          rsyncResult := Some(r);
          rsyncEnd := true;
      }
      assert signals[..n + 1][..n] == signals[..n];
      assert signals[..n + 1][n] == s;
      n := n + 1;
      if rrdpEnd && rsyncEnd {
        return Finished(rrdpResult, rsyncResult, n);
      }
    }
    assert signals[..n] == signals;
    return Blocked(rrdpResult, rsyncResult);
  }

  /** A result from a channel has been recorded exactly when that channel delivered one. */
  lemma {:induction false} LastRrdpPresent(received: seq<Signal>)
    ensures LastRrdp(received).Some? <==> CountRrdp(received) > 0
    ensures HasRrdp(received) <==> CountRrdp(received) > 0
    decreases |received|
  {
    if |received| > 0 {
      var prefix := received[..|received| - 1];
      LastRrdpPresent(prefix);
      assert forall i :: 0 <= i < |prefix| ==> prefix[i] == received[i];
    }
  }

  lemma {:induction false} LastRsyncPresent(received: seq<Signal>)
    ensures LastRsync(received).Some? <==> CountRsync(received) > 0
    ensures HasRsync(received) <==> CountRsync(received) > 0
    decreases |received|
  {
    if |received| > 0 {
      var prefix := received[..|received| - 1];
      LastRsyncPresent(prefix);
      assert forall i :: 0 <= i < |prefix| ==> prefix[i] == received[i];
    }
  }

  /** Every signal comes from one of the two channels, and a prefix holds no more of either. */
  lemma {:induction false} CountsOfPrefix(received: seq<Signal>, j: nat)
    requires j <= |received|
    ensures CountRrdp(received) + CountRsync(received) == |received|
    ensures CountRrdp(received[..j]) <= CountRrdp(received)
    ensures CountRsync(received[..j]) <= CountRsync(received)
    ensures CountRrdp(received[..j]) + CountRsync(received[..j]) == j
    decreases |received|
  {
    if |received| > 0 {
      var prefix := received[..|received| - 1];
      if j == |received| {
        assert received[..j] == received;
        CountsOfPrefix(prefix, |prefix|);
      } else {
        assert received[..j] == prefix[..j];
        CountsOfPrefix(prefix, j);
      }
    } else {
      assert received[..j] == [];
    }
  }

  /** Under the expected protocol, the last signal is the first point at which everything has
      been reported: the wait consumes every signal and no fewer. */
  lemma WellBehavedCompletesAtEnd(rrdpUrls: seq<string>, rsyncUrls: seq<string>, signals: seq<Signal>)
    requires WellBehaved(rrdpUrls, rsyncUrls, signals)
    ensures 1 <= |signals|
    ensures AllReported(rrdpUrls, rsyncUrls, signals[..|signals|])
    ensures forall j :: 1 <= j < |signals| ==> !AllReported(rrdpUrls, rsyncUrls, signals[..j])
    ensures LastRrdp(signals).Some? <==> |rrdpUrls| > 0
    ensures LastRsync(signals).Some? <==> |rsyncUrls| > 0
  {
    CountsOfPrefix(signals, |signals|);
    assert signals[..|signals|] == signals;
    LastRrdpPresent(signals);
    LastRsyncPresent(signals);
    forall j | 1 <= j < |signals|
      ensures !AllReported(rrdpUrls, rsyncUrls, signals[..j])
    {
      CountsOfPrefix(signals, j);
      LastRrdpPresent(signals[..j]);
      LastRsyncPresent(signals[..j]);
    }
  }

  /** Only RRDP was dispatched and it reports once: the protocol holds, the one signal
      completes the wait and its result is the one recorded. */
  lemma OnlyRrdpDispatchedWaitsForOneSignal(r: SyncResult)
    ensures WellBehaved(["https://a/rrdp"], [], [RrdpSignal(r)])
    ensures AllReported(["https://a/rrdp"], [], [RrdpSignal(r)])
    ensures LastRrdp([RrdpSignal(r)]) == Some(r) && LastRsync([RrdpSignal(r)]) == None
  {
    assert [RrdpSignal(r)][..0] == [];
  }
}

=== FILE: full_sync.dfy ===
/** Detection of a layout left by the other transport: an RRDP URL whose directory already
    exists under the rsync destination, or an rsync URL whose directory already exists under
    the RRDP destination, means the next run must be a full resynchronisation. */
module FullSync {
  import opened Wrappers

  /** Joins a destination directory and the host part of a URL; fails on a malformed URL. */
  type JoinOracle = (string, string) -> Result<string>

  /** Asks the file system whether a path exists; may fail. */
  type ExistsOracle = string -> Result<bool>

  /** The outcome of probing one list of URLs under one destination directory. */
  datatype ScanResult = NoConflict | Conflict(path: string) | ProbeFailed(error: string)

  /** The pair `(needFullSync, err)` returned by `checkNeedFullSync`. */
  datatype Detection = Detection(needFullSync: bool, err: Option<string>)

  /** Both probes for `url` under `destRoot` succeed and report that the path is absent. */
  predicate Clear(destRoot: string, url: string, join: JoinOracle, isExists: ExistsOracle) {
    && join(destRoot, url).Success?
    && isExists(join(destRoot, url).value) == Success(false)
  }

  /** Probes `url` under `destRoot` and reports a conflict or a probe failure. */
  predicate Blocks(destRoot: string, url: string, join: JoinOracle, isExists: ExistsOracle) {
    !Clear(destRoot, url, join, isExists)
  }

  /** The path of `url` under `destRoot` is there: both probes succeed and the path exists. */
  predicate Occupied(destRoot: string, url: string, join: JoinOracle, isExists: ExistsOracle) {
    && join(destRoot, url).Success?
    && isExists(join(destRoot, url).value) == Success(true)
  }

  /** Probing `url` under `destRoot` fails with `e`, at the join or at the existence check. */
  predicate ProbeFails(destRoot: string, url: string, join: JoinOracle, isExists: ExistsOracle, e: string) {
    || join(destRoot, url) == Failure(e)
    || (join(destRoot, url).Success? && isExists(join(destRoot, url).value) == Failure(e))
  }

  /** One loop of `checkNeedFullSync`: probe the URLs in order and stop at the first URL whose
      path exists or whose probe fails. The result names that first blocking URL's outcome. */
  function ScanUrls(destRoot: string, urls: seq<string>, join: JoinOracle, isExists: ExistsOracle): (r: ScanResult)
    ensures r.NoConflict? <==> forall i :: 0 <= i < |urls| ==> Clear(destRoot, urls[i], join, isExists)
    ensures r.Conflict? ==>
              (exists i :: 0 <= i < |urls|
                 && join(destRoot, urls[i]) == Success(r.path)
                 && isExists(r.path) == Success(true)
                 && (forall j :: 0 <= j < i ==> Clear(destRoot, urls[j], join, isExists)))
    ensures r.ProbeFailed? ==>
              (exists i :: 0 <= i < |urls|
                 && ProbeFails(destRoot, urls[i], join, isExists, r.error)
                 && (forall j :: 0 <= j < i ==> Clear(destRoot, urls[j], join, isExists)))
    decreases |urls|
  {
    if |urls| == 0 then NoConflict
    else
      match join(destRoot, urls[0])
      case Failure(e) => ProbeFailed(e)
      case Success(p) =>
        match isExists(p)
        case Failure(e) => ProbeFailed(e)
        case Success(found) =>
          if found then Conflict(p)
          else
            var rest := ScanUrls(destRoot, urls[1..], join, isExists);
            assert forall i :: 0 < i < |urls| ==> urls[1..][i - 1] == urls[i];
            rest
  }

  /** The model of `checkNeedFullSync`. The destination roots are the configured
      `rrdp::destpath` and `rsync::destpath` followed by the path separator. RRDP URLs are
      probed under the rsync root first, then rsync URLs under the RRDP root. A conflict gives
      `(true, nil)`, a probe error `(true, err)`, and only an all-clear scan `(false, nil)`. */
  function CheckNeedFullSync(rrdpDestConf: string, rsyncDestConf: string, sep: string,
                             rrdpUrls: seq<string>, rsyncUrls: seq<string>,
                             join: JoinOracle, isExists: ExistsOracle): (d: Detection)
    ensures d.err.Some? ==> d.needFullSync
    ensures d.err.Some? ==>
              (exists i :: 0 <= i < |rrdpUrls| && ProbeFails(rsyncDestConf + sep, rrdpUrls[i], join, isExists, d.err.value))
              || (exists i :: 0 <= i < |rsyncUrls| && ProbeFails(rrdpDestConf + sep, rsyncUrls[i], join, isExists, d.err.value))
    ensures d.needFullSync && d.err.None? ==>
              (exists i :: 0 <= i < |rrdpUrls| && Occupied(rsyncDestConf + sep, rrdpUrls[i], join, isExists))
              || (exists i :: 0 <= i < |rsyncUrls| && Occupied(rrdpDestConf + sep, rsyncUrls[i], join, isExists))
    ensures !d.needFullSync <==>
              (forall i :: 0 <= i < |rrdpUrls| ==> Clear(rsyncDestConf + sep, rrdpUrls[i], join, isExists))
              && (forall i :: 0 <= i < |rsyncUrls| ==> Clear(rrdpDestConf + sep, rsyncUrls[i], join, isExists))
  {
    var rrdpDestPath := rrdpDestConf + sep;
    var rsyncDestPath := rsyncDestConf + sep;
    match ScanUrls(rsyncDestPath, rrdpUrls, join, isExists)
    case Conflict(_) => Detection(true, None)
    case ProbeFailed(e) => Detection(true, Some(e))
    case NoConflict =>
      match ScanUrls(rrdpDestPath, rsyncUrls, join, isExists)
      case Conflict(_) => Detection(true, None)
      case ProbeFailed(e) => Detection(true, Some(e))
      case NoConflict => Detection(false, None)
  }

  /** The scan short-circuits: once a prefix blocks, what follows it is never probed. */
  lemma {:induction false} ScanStopsAtFirstBlock(destRoot: string, a: seq<string>, b: seq<string>,
                                                 join: JoinOracle, isExists: ExistsOracle)
    ensures ScanUrls(destRoot, a + b, join, isExists)
            == (if ScanUrls(destRoot, a, join, isExists).NoConflict? then ScanUrls(destRoot, b, join, isExists)
                else ScanUrls(destRoot, a, join, isExists))
    decreases |a|
  {
    if |a| == 0 {
      assert a + b == b;
    } else {
      assert (a + b)[0] == a[0];
      assert (a + b)[1..] == a[1..] + b;
      ScanStopsAtFirstBlock(destRoot, a[1..], b, join, isExists);
    }
  }

  /** RRDP URLs are probed first: when one of them blocks, the verdict does not depend on the
      rsync URLs at all. */
  lemma RrdpScannedFirst(rrdpDestConf: string, rsyncDestConf: string, sep: string,
                         rrdpUrls: seq<string>, rsyncUrls1: seq<string>, rsyncUrls2: seq<string>,
                         join: JoinOracle, isExists: ExistsOracle)
    requires exists i :: 0 <= i < |rrdpUrls| && Blocks(rsyncDestConf + sep, rrdpUrls[i], join, isExists)
    ensures CheckNeedFullSync(rrdpDestConf, rsyncDestConf, sep, rrdpUrls, rsyncUrls1, join, isExists)
            == CheckNeedFullSync(rrdpDestConf, rsyncDestConf, sep, rrdpUrls, rsyncUrls2, join, isExists)
    ensures CheckNeedFullSync(rrdpDestConf, rsyncDestConf, sep, rrdpUrls, rsyncUrls1, join, isExists).needFullSync
  {
    var r := ScanUrls(rsyncDestConf + sep, rrdpUrls, join, isExists);
    assert !r.NoConflict?;
  }

  /** With every probe succeeding, a full sync is needed exactly when some RRDP URL's path
      exists under the rsync root or some rsync URL's path exists under the RRDP root, and the
      verdict then carries no error. */
  lemma ConflictIffPathExists(rrdpDestConf: string, rsyncDestConf: string, sep: string,
                              rrdpUrls: seq<string>, rsyncUrls: seq<string>,
                              join: JoinOracle, isExists: ExistsOracle)
    requires forall r, u :: join(r, u).Success? && isExists(join(r, u).value).Success?
    ensures CheckNeedFullSync(rrdpDestConf, rsyncDestConf, sep, rrdpUrls, rsyncUrls, join, isExists).err.None?
    ensures CheckNeedFullSync(rrdpDestConf, rsyncDestConf, sep, rrdpUrls, rsyncUrls, join, isExists).needFullSync
            <==> (exists i :: 0 <= i < |rrdpUrls| && isExists(join(rsyncDestConf + sep, rrdpUrls[i]).value) == Success(true))
                 || (exists i :: 0 <= i < |rsyncUrls| && isExists(join(rrdpDestConf + sep, rsyncUrls[i]).value) == Success(true))
  {
    var r1 := ScanUrls(rsyncDestConf + sep, rrdpUrls, join, isExists);
    assert !r1.ProbeFailed?;
    if r1.NoConflict? {
      var r2 := ScanUrls(rrdpDestConf + sep, rsyncUrls, join, isExists);
      assert !r2.ProbeFailed?;
    }
  }

  /** A previous rsync run left `/dest/rsync/a/repo`; this run fetches `a` by RRDP, so the
      detector asks for a full sync without an error. */
  lemma PreviousRsyncLayoutForcesFullSync()
    ensures CheckNeedFullSync("/dest/rrdp", "/dest/rsync", "/", ["https://a/rrdp"], [],
                              (root: string, url: string) => Success(root + "a/repo"),
                              (p: string) => Success(p == "/dest/rsync/a/repo"))
            == Detection(true, None)
  {
  }
}

=== FILE: sync_log_file_db.dfy ===
/** The per-file records of a sync run (`lab_rpki_sync_log_file`) as parse/validate uses them:
    selecting the records still waiting for the object tables, resolving for `update`/`del`
    records the id of the object row they replace, and marking records as processed. The
    table is a sequence of rows in storage order; object-table lookups and UPDATE
    statements answer through oracles. */
module SyncLogFileDb {
  import opened Wrappers
  import opened XormDb

  const NotYet := "notYet"
  const NotNeed := "notNeed"
  const Finished := "finished"

  /** A row of `lab_rpki_sync_log_file`. `updateCertTable` and `rtr` are the two fields of its
      JSON `state` column this module reads and writes. */
  datatype SyncLogFileRow = SyncLogFileRow(
    id: nat,
    syncLogId: nat,
    filePath: string,
    fileName: string,
    fileType: string,
    syncType: string,
    updateCertTable: string,
    rtr: string,
    jsonAll: Option<string>)

  /** A sync-log file record in memory. `certId` is the id of the existing object row an
      `update` or `del` record refers to; 0, Go's zero value, when none was resolved. */
  datatype SyncLogFileModel = SyncLogFileModel(
    id: nat,
    syncLogId: nat,
    filePath: string,
    fileName: string,
    fileType: string,
    syncType: string,
    certId: nat,
    jsonAll: string)

  /** The records of one sync run, as `NewSyncLogFileModels` wraps them. */
  datatype SyncLogFileModels = SyncLogFileModels(syncLogId: nat, syncLogFileModels: seq<SyncLogFileModel>)

  /** Looks up `id` in a table by (filePath, fileName): `Success(None)` when no row matches. */
  type LookupOracle = (string, string, string) -> Result<Option<nat>>

  /** No two rows share an id, as when `id` is the table's key. */
  predicate IdsDistinct(rows: seq<SyncLogFileRow>) {
    forall i, j :: 0 <= i < j < |rows| ==> rows[i].id != rows[j].id
  }

  /** The WHERE clause of the selection: not yet written to the object tables, and of this run. */
  predicate Pending(row: SyncLogFileRow, syncLogId: nat) {
    row.updateCertTable == NotYet && row.syncLogId == syncLogId
  }

  /** The columns the selection reads; `certId` and `jsonAll` keep their zero values. */
  function ModelOf(row: SyncLogFileRow): SyncLogFileModel {
    SyncLogFileModel(row.id, row.syncLogId, row.filePath, row.fileName, row.fileType, row.syncType, 0, "")
  }

  /** The rows the WHERE clause admits, in storage order. */
  function FilterPending(rows: seq<SyncLogFileRow>, syncLogId: nat): (r: seq<SyncLogFileModel>)
    ensures |r| <= |rows|
    decreases |rows|
  {
    if |rows| == 0 then []
    else if Pending(rows[0], syncLogId) then [ModelOf(rows[0])] + FilterPending(rows[1..], syncLogId)
    else FilterPending(rows[1..], syncLogId)
  }

  /** Every admitted record is a pending row of the run. */
  lemma {:induction false} FilterPendingSound(rows: seq<SyncLogFileRow>, syncLogId: nat)
    ensures forall m :: m in FilterPending(rows, syncLogId) ==>
              exists i :: 0 <= i < |rows| && Pending(rows[i], syncLogId) && m == ModelOf(rows[i])
    decreases |rows|
  {
    if |rows| > 0 {
      var tail := rows[1..];
      FilterPendingSound(tail, syncLogId);
      forall m | m in FilterPending(rows, syncLogId)
        ensures exists i :: 0 <= i < |rows| && Pending(rows[i], syncLogId) && m == ModelOf(rows[i])
      {
        if m in FilterPending(tail, syncLogId) {
          var i :| 0 <= i < |tail| && Pending(tail[i], syncLogId) && m == ModelOf(tail[i]);
          assert tail[i] == rows[i + 1];
        } else {
          assert Pending(rows[0], syncLogId) && m == ModelOf(rows[0]);
        }
      }
    }
  }

  /** Every pending row of the run is admitted. */
  lemma {:induction false} FilterPendingComplete(rows: seq<SyncLogFileRow>, syncLogId: nat)
    ensures forall i :: 0 <= i < |rows| && Pending(rows[i], syncLogId) ==> ModelOf(rows[i]) in FilterPending(rows, syncLogId)
    decreases |rows|
  {
    if |rows| > 0 {
      FilterPendingComplete(rows[1..], syncLogId);
      assert forall i :: 0 < i < |rows| ==> rows[1..][i - 1] == rows[i];
    }
  }

  /** A table whose row ids are distinct yields admitted records with distinct ids. */
  lemma {:induction false} FilterPendingDistinct(rows: seq<SyncLogFileRow>, syncLogId: nat)
    requires IdsDistinct(rows)
    ensures ModelIdsDistinct(FilterPending(rows, syncLogId))
    decreases |rows|
  {
    if |rows| > 0 {
      var tail := rows[1..];
      assert IdsDistinct(tail) by {
        assert forall i :: 0 <= i < |tail| ==> tail[i] == rows[i + 1];
      }
      FilterPendingDistinct(tail, syncLogId);
      FilterPendingSound(tail, syncLogId);
      var rest := FilterPending(tail, syncLogId);
      if Pending(rows[0], syncLogId) {
        forall k | 0 <= k < |rest| ensures rest[k].id != rows[0].id {
          assert rest[k] in rest;
          var i :| 0 <= i < |tail| && Pending(tail[i], syncLogId) && rest[k] == ModelOf(tail[i]);
          assert tail[i] == rows[i + 1];
        }
        var r := FilterPending(rows, syncLogId);
        assert r == [ModelOf(rows[0])] + rest;
        forall i, j | 0 <= i < j < |r| ensures r[i].id != r[j].id {
          if i > 0 {
            assert r[i] == rest[i - 1] && r[j] == rest[j - 1];
          } else {
            assert r[j] == rest[j - 1];
          }
        }
      }
    }
  }

  /** No two records share an id. */
  predicate ModelIdsDistinct(s: seq<SyncLogFileModel>) {
    forall i, j :: 0 <= i < j < |s| ==> s[i].id != s[j].id
  }

  /** Ascending by id, as `ORDER BY id` returns rows. */
  predicate SortedById(s: seq<SyncLogFileModel>) {
    forall i, j :: 0 <= i < j < |s| ==> s[i].id <= s[j].id
  }

  /** Strictly ascending by id. */
  predicate StrictlyById(s: seq<SyncLogFileModel>) {
    forall i, j :: 0 <= i < j < |s| ==> s[i].id < s[j].id
  }

  /** A record no larger than every record of an id-ordered sequence can go in front of it. */
  lemma ConsSorted(x: SyncLogFileModel, s: seq<SyncLogFileModel>)
    requires SortedById(s)
    requires forall y :: y in s ==> x.id <= y.id
    ensures SortedById([x] + s)
  {
    forall i, j | 0 <= i < j < |[x] + s| ensures ([x] + s)[i].id <= ([x] + s)[j].id {
      assert ([x] + s)[j] == s[j - 1] && s[j - 1] in s;
      if i > 0 {
        assert ([x] + s)[i] == s[i - 1];
      }
    }
  }

  /** A record smaller than every record of a strictly ordered sequence can go in front of it. */
  lemma ConsStrict(x: SyncLogFileModel, s: seq<SyncLogFileModel>)
    requires StrictlyById(s)
    requires forall y :: y in s ==> x.id < y.id
    ensures StrictlyById([x] + s)
  {
    forall i, j | 0 <= i < j < |[x] + s| ensures ([x] + s)[i].id < ([x] + s)[j].id {
      assert ([x] + s)[j] == s[j - 1] && s[j - 1] in s;
      if i > 0 {
        assert ([x] + s)[i] == s[i - 1];
      }
    }
  }

  /** Inserts `m` into an id-ordered sequence, before the first record with a larger id. */
  function InsertById(m: SyncLogFileModel, s: seq<SyncLogFileModel>): (r: seq<SyncLogFileModel>)
    requires SortedById(s)
    ensures forall x :: x in r <==> x == m || x in s
    ensures SortedById(r)
    decreases |s|
  {
    if |s| == 0 then [m]
    else if m.id <= s[0].id then
      ConsSorted(m, s);
      [m] + s
    else
      var tail := s[1..];
      assert s == [s[0]] + tail;
      var rest := InsertById(m, tail);
      ConsSorted(s[0], rest);
      [s[0]] + rest
  }

  /** The insertion adds exactly `m`. */
  lemma {:induction false} InsertByIdPermutes(m: SyncLogFileModel, s: seq<SyncLogFileModel>)
    requires SortedById(s)
    ensures multiset(InsertById(m, s)) == multiset(s) + multiset{m}
    decreases |s|
  {
    if |s| > 0 && m.id > s[0].id {
      var tail := s[1..];
      assert s == [s[0]] + tail;
      InsertByIdPermutes(m, tail);
    }
  }

  /** The ordering of the result set: the records sorted by id. */
  function SortById(s: seq<SyncLogFileModel>): (r: seq<SyncLogFileModel>)
    ensures forall x :: x in r <==> x in s
    ensures SortedById(r)
    decreases |s|
  {
    if |s| == 0 then []
    else
      assert s == [s[0]] + s[1..];
      InsertById(s[0], SortById(s[1..]))
  }

  /** Sorting only reorders: the records and their multiplicities are those of the input. */
  lemma {:induction false} SortByIdPermutes(s: seq<SyncLogFileModel>)
    ensures multiset(SortById(s)) == multiset(s)
    decreases |s|
  {
    if |s| > 0 {
      assert s == [s[0]] + s[1..];
      SortByIdPermutes(s[1..]);
      InsertByIdPermutes(s[0], SortById(s[1..]));
    }
  }

  /** Inserting a record whose id is new keeps an id-ordered sequence strictly ordered. */
  lemma {:induction false} InsertByIdStrict(m: SyncLogFileModel, s: seq<SyncLogFileModel>)
    requires StrictlyById(s)
    requires forall x :: x in s ==> x.id != m.id
    ensures StrictlyById(InsertById(m, s))
    decreases |s|
  {
    if |s| == 0 {
    } else if m.id < s[0].id {
      ConsStrict(m, s);
    } else {
      var tail := s[1..];
      assert s == [s[0]] + tail;
      InsertByIdStrict(m, tail);
      ConsStrict(s[0], InsertById(m, tail));
    }
  }

  /** Records with distinct ids come out of the sort strictly by id. */
  lemma {:induction false} SortByIdStrict(s: seq<SyncLogFileModel>)
    requires ModelIdsDistinct(s)
    ensures StrictlyById(SortById(s))
    decreases |s|
  {
    if |s| > 0 {
      var tail := s[1..];
      assert ModelIdsDistinct(tail) by {
        assert forall i :: 0 <= i < |tail| ==> tail[i] == s[i + 1];
      }
      SortByIdStrict(tail);
      var sorted := SortById(tail);
      forall x | x in sorted ensures x.id != s[0].id {
        var i :| 0 <= i < |tail| && tail[i] == x;
        assert tail[i] == s[i + 1];
      }
      InsertByIdStrict(s[0], sorted);
    }
  }

  /** The query of `GetSyncLogFileModelsBySyncLogId`: the pending records of the run, ordered
      by id whatever the storage order. */
  function SelectPending(rows: seq<SyncLogFileRow>, syncLogId: nat): (r: seq<SyncLogFileModel>)
    ensures SortedById(r)
    ensures multiset(r) == multiset(FilterPending(rows, syncLogId))
  {
    SortByIdPermutes(FilterPending(rows, syncLogId));
    SortById(FilterPending(rows, syncLogId))
  }

  /** Every selected record is a pending row of the run. */
  lemma SelectPendingSound(rows: seq<SyncLogFileRow>, syncLogId: nat)
    ensures forall m :: m in SelectPending(rows, syncLogId) ==>
              exists i :: 0 <= i < |rows| && Pending(rows[i], syncLogId) && m == ModelOf(rows[i])
  {
    FilterPendingSound(rows, syncLogId);
    forall m | m in SelectPending(rows, syncLogId)
      ensures m in FilterPending(rows, syncLogId)
    {
      assert m in multiset(SelectPending(rows, syncLogId));
    }
  }

  /** Every pending row of the run is selected. */
  lemma SelectPendingComplete(rows: seq<SyncLogFileRow>, syncLogId: nat)
    ensures forall i :: 0 <= i < |rows| && Pending(rows[i], syncLogId) ==> ModelOf(rows[i]) in SelectPending(rows, syncLogId)
  {
    FilterPendingComplete(rows, syncLogId);
    forall i | 0 <= i < |rows| && Pending(rows[i], syncLogId)
      ensures ModelOf(rows[i]) in SelectPending(rows, syncLogId)
    {
      assert ModelOf(rows[i]) in multiset(FilterPending(rows, syncLogId));
    }
  }

  /** With distinct row ids the records come out strictly by id. */
  lemma SelectPendingOrdered(rows: seq<SyncLogFileRow>, syncLogId: nat)
    requires IdsDistinct(rows)
    ensures StrictlyById(SelectPending(rows, syncLogId))
  {
    FilterPendingDistinct(rows, syncLogId);
    SortByIdStrict(FilterPending(rows, syncLogId));
  }

  /** The storage order does not reach the caller: rows stored as ids 5, 3 come out as 3, 5. */
  lemma StorageOrderIgnored(a: SyncLogFileRow, b: SyncLogFileRow)
    requires a.id == 5 && b.id == 3 && Pending(a, 1) && Pending(b, 1)
    ensures SelectPending([a, b], 1) == [ModelOf(b), ModelOf(a)]
  {
    var ma, mb := ModelOf(a), ModelOf(b);
    assert FilterPending([a, b], 1) == [ma, mb] by {
      assert [a, b][1..] == [b];
      assert [b][1..] == [];
    }
    assert SortById([ma, mb]) == InsertById(ma, SortById([mb])) by {
      assert [ma, mb][1..] == [mb];
    }
    assert SortById([mb]) == [mb] by {
      assert [mb][1..] == [];
    }
    assert InsertById(ma, [mb]) == [mb, ma] by {
      assert [mb][1..] == [];
    }
  }

  /** The object table of a file type: `cer`, `crl`, `mft` and `roa` each have their own. */
  function TableOf(fileType: string): (r: Option<string>)
    ensures r.Some? <==> fileType in {"cer", "crl", "mft", "roa"}
    ensures fileType == "cer" ==> r == Some("lab_rpki_cer")
    ensures fileType == "crl" ==> r == Some("lab_rpki_crl")
    ensures fileType == "mft" ==> r == Some("lab_rpki_mft")
    ensures fileType == "roa" ==> r == Some("lab_rpki_roa")
  {
    match fileType
    case "cer" => Some("lab_rpki_cer")
    case "crl" => Some("lab_rpki_crl")
    case "mft" => Some("lab_rpki_mft")
    case "roa" => Some("lab_rpki_roa")
    case _ => None
  }

  /** The table name in effect after the first `n` records: that of the last `update`/`del`
      record of a known file type among them, or the empty name when there is none. The loop
      keeps this one variable across iterations. */
  function TableInEffect(records: seq<SyncLogFileModel>, n: nat): string
    requires n <= |records|
  {
    if n == 0 then ""
    else if records[n - 1].syncType != "add" && TableOf(records[n - 1].fileType).Some? then
      TableOf(records[n - 1].fileType).value
    else TableInEffect(records, n - 1)
  }

  /** The lookup the loop issues for record `i`, which is not an `add` record. */
  function LookupFor(records: seq<SyncLogFileModel>, i: nat, lookup: LookupOracle): Result<Option<nat>>
    requires i < |records|
  {
    lookup(TableInEffect(records, i + 1), records[i].filePath, records[i].fileName)
  }

  /** Every `update`/`del` record's lookup answers without error. */
  predicate AllLookupsSucceed(records: seq<SyncLogFileModel>, lookup: LookupOracle) {
    forall i :: 0 <= i < |records| && records[i].syncType != "add" ==> LookupFor(records, i, lookup).Success?
  }

  /** `out` is record `i` after resolution: `add` records are untouched; other records get
      the id the lookup found, and stay as they were when it found none. */
  predicate ResolvedAs(records: seq<SyncLogFileModel>, i: nat, lookup: LookupOracle, out: SyncLogFileModel)
    requires i < |records|
  {
    if records[i].syncType == "add" then out == records[i]
    else
      LookupFor(records, i, lookup).Success?
      && match LookupFor(records, i, lookup).value
         case Some(c) => out == records[i].(certId := c)
         case None => out == records[i]
  }

  /** The id-resolution loop of `GetSyncLogFileModelsBySyncLogId`. It fails with the error of
      the first failing lookup and otherwise resolves every record. */
  method ResolveCertIds(records: seq<SyncLogFileModel>, lookup: LookupOracle)
    returns (res: Result<seq<SyncLogFileModel>>)
    ensures res.Success? <==> AllLookupsSucceed(records, lookup)
    ensures res.Success? ==>
              |res.value| == |records| && forall i :: 0 <= i < |records| ==> ResolvedAs(records, i, lookup, res.value[i])
    ensures res.Failure? ==>
              exists i :: 0 <= i < |records| && records[i].syncType != "add"
                && LookupFor(records, i, lookup) == Failure(res.error)
                && (forall j :: 0 <= j < i && records[j].syncType != "add" ==> LookupFor(records, j, lookup).Success?)
  {
    var out := records;
    var tableName := "";
    var i := 0;
    while i < |records|
      invariant 0 <= i <= |records|
      invariant tableName == TableInEffect(records, i)
      invariant |out| == |records|
      invariant forall k :: 0 <= k < i ==> ResolvedAs(records, k, lookup, out[k])
      invariant forall k :: i <= k < |records| ==> out[k] == records[k]
      invariant forall k :: 0 <= k < i && records[k].syncType != "add" ==> LookupFor(records, k, lookup).Success?
    {
      if records[i].syncType == "add" {
        i := i + 1;
        continue;
      }
      // the switch on the file type; an unknown type leaves the previous table name in place
      var known := TableOf(records[i].fileType);
      if known.Some? {
        tableName := known.value;
      }
      var found := lookup(tableName, records[i].filePath, records[i].fileName);
      assert found == LookupFor(records, i, lookup);
      if found.Failure? {
        assert records[i].syncType != "add" && LookupFor(records, i, lookup) == Failure(found.error);
        return Failure(found.error);
      }
      ghost var before := out;
      if found.value.Some? {
        out := out[i := records[i].(certId := found.value.value)];
      }
      assert forall k :: 0 <= k < |records| && k != i ==> out[k] == before[k];
      assert ResolvedAs(records, i, lookup, out[i]);
      i := i + 1;
    }
    return Success(out);
  }

  /** The model of `GetSyncLogFileModelsBySyncLogId`: select the pending records of the run
      ordered by id (the query may fail with `findErr`), then resolve their ids. Any error gives
      no records at all. */
  method GetSyncLogFileModelsBySyncLogId(rows: seq<SyncLogFileRow>, syncLogId: nat, findErr: Option<string>,
                                         lookup: LookupOracle)
    returns (res: Result<SyncLogFileModels>)
    ensures findErr.Some? ==> res == Failure(findErr.value)
    ensures res.Success? ==> res.value.syncLogId == syncLogId
    ensures res.Success? ==>
              var pending := SelectPending(rows, syncLogId);
              |res.value.syncLogFileModels| == |pending|
              && forall k :: 0 <= k < |pending| ==> ResolvedAs(pending, k, lookup, res.value.syncLogFileModels[k])
    ensures res.Success? <==> findErr.None? && AllLookupsSucceed(SelectPending(rows, syncLogId), lookup)
    ensures res.Failure? && findErr.None? ==>
              var pending := SelectPending(rows, syncLogId);
              exists i :: 0 <= i < |pending| && pending[i].syncType != "add"
                && LookupFor(pending, i, lookup) == Failure(res.error)
                && forall j :: 0 <= j < i && pending[j].syncType != "add" ==> LookupFor(pending, j, lookup).Success?
    ensures res.Success? ==> SortedById(res.value.syncLogFileModels)
    ensures res.Success? && IdsDistinct(rows) ==> StrictlyById(res.value.syncLogFileModels)
  {
    if findErr.Some? {
      return Failure(findErr.value);
    }
    var pending := SelectPending(rows, syncLogId);
    var resolved := ResolveCertIds(pending, lookup);
    if resolved.Failure? {
      return Failure(resolved.error);
    }
    if IdsDistinct(rows) {
      SelectPendingOrdered(rows, syncLogId);
    }
    assert forall k :: 0 <= k < |pending| ==> resolved.value[k].id == pending[k].id by {
      forall k | 0 <= k < |pending| ensures resolved.value[k].id == pending[k].id {
        assert ResolvedAs(pending, k, lookup, resolved.value[k]);
      }
    }
    return Success(SyncLogFileModels(syncLogId, resolved.value));
  }

  /** `add` records never receive an id, whatever the object tables hold. */
  lemma AddRecordsKeepNoCertId(records: seq<SyncLogFileModel>, lookup: LookupOracle, out: seq<SyncLogFileModel>, i: nat)
    requires |out| == |records| && i < |records|
    requires forall k :: 0 <= k < |records| ==> ResolvedAs(records, k, lookup, out[k])
    requires records[i].syncType == "add" && records[i].certId == 0
    ensures out[i].certId == 0
  {
    assert ResolvedAs(records, i, lookup, out[i]);
  }

  /** A record of a known file type is looked up in its own table. */
  lemma KnownTypeUsesItsTable(records: seq<SyncLogFileModel>, i: nat)
    requires i < |records| && records[i].syncType != "add"
    requires TableOf(records[i].fileType).Some?
    ensures TableInEffect(records, i + 1) == TableOf(records[i].fileType).value
  {
  }

  /** A record of an unknown file type is looked up in the table of the last earlier
      `update`/`del` record of a known type, or in the table with the empty name when there is
      none. */
  lemma {:induction false} UnknownTypeReusesPreviousTable(records: seq<SyncLogFileModel>, i: nat)
    requires i < |records| && TableOf(records[i].fileType).None?
    ensures TableInEffect(records, i + 1) == "" <==>
              forall j :: 0 <= j < i ==> records[j].syncType == "add" || TableOf(records[j].fileType).None?
    ensures TableInEffect(records, i + 1) != "" ==>
              exists j :: 0 <= j < i && records[j].syncType != "add"
                && TableOf(records[j].fileType) == Some(TableInEffect(records, i + 1))
                && forall m :: j < m <= i ==> records[m].syncType == "add" || TableOf(records[m].fileType).None?
  {
    TableInEffectSpec(records, i + 1);
  }

  lemma {:induction false} TableInEffectSpec(records: seq<SyncLogFileModel>, n: nat)
    requires n <= |records|
    ensures TableInEffect(records, n) == "" <==>
              forall j :: 0 <= j < n ==> records[j].syncType == "add" || TableOf(records[j].fileType).None?
    ensures TableInEffect(records, n) != "" ==>
              exists j :: 0 <= j < n && records[j].syncType != "add"
                && TableOf(records[j].fileType) == Some(TableInEffect(records, n))
                && forall m :: j < m < n ==> records[m].syncType == "add" || TableOf(records[m].fileType).None?
    decreases n
  {
    if n > 0 {
      var last := records[n - 1];
      if last.syncType != "add" && TableOf(last.fileType).Some? {
        assert TableInEffect(records, n) == TableOf(last.fileType).value != "";
        assert records[n - 1].syncType != "add" && TableOf(records[n - 1].fileType) == Some(TableInEffect(records, n));
      } else {
        assert TableInEffect(records, n) == TableInEffect(records, n - 1);
        TableInEffectSpec(records, n - 1);
        if TableInEffect(records, n) != "" {
          var j :| 0 <= j < n - 1 && records[j].syncType != "add"
                   && TableOf(records[j].fileType) == Some(TableInEffect(records, n - 1))
                   && forall m :: j < m < n - 1 ==> records[m].syncType == "add" || TableOf(records[m].fileType).None?;
          assert forall m :: j < m < n ==> records[m].syncType == "add" || TableOf(records[m].fileType).None?;
        }
      }
    }
  }

  /** The `rtr` state written for a record: a downstream RTR refresh is owed exactly for a ROA
      that is not being deleted. */
  function RtrState(rec: SyncLogFileModel): (r: string)
    ensures r == NotYet <==> rec.fileType == "roa" && rec.syncType != "del"
    ensures r == NotNeed <==> !(rec.fileType == "roa" && rec.syncType != "del")
  {
    if rec.fileType == "roa" && rec.syncType != "del" then NotYet else NotNeed
  }

  /** The UPDATE issued for one record, with its arguments. */
  datatype UpdateStmt = UpdateStmt(id: nat, rtr: string, jsonAll: Option<string>)

  /** The database's answer to each UPDATE: `Some(error)` when it fails. */
  type UpdateFaults = UpdateStmt -> Option<string>

  datatype UpdateResult = UpdateResult(rows: seq<SyncLogFileRow>, err: Option<string>)

  function StmtFor(rec: SyncLogFileModel): UpdateStmt {
    UpdateStmt(rec.id, RtrState(rec), NullString(rec.jsonAll))
  }

  /** `update ... where f.id = ?`: only the row with that id changes. */
  function ApplyUpdate(rows: seq<SyncLogFileRow>, s: UpdateStmt): (r: seq<SyncLogFileRow>)
    ensures |r| == |rows|
    ensures forall i :: 0 <= i < |rows| ==> r[i].id == rows[i].id
    ensures forall i :: 0 <= i < |rows| && rows[i].id != s.id ==> r[i] == rows[i]
  {
    seq(|rows|, i requires 0 <= i < |rows| =>
      if rows[i].id == s.id then rows[i].(updateCertTable := Finished, rtr := s.rtr, jsonAll := s.jsonAll) else rows[i])
  }

  /** The last record with the given id: the one whose UPDATE a row keeps. */
  function LastFor(records: seq<SyncLogFileModel>, id: nat): Option<SyncLogFileModel> {
    if |records| == 0 then None
    else if records[|records| - 1].id == id then Some(records[|records| - 1])
    else LastFor(records[..|records| - 1], id)
  }

  /** The model of `UpdateSyncLogFilesJsonAllAndState`: one UPDATE per record, in order, inside
      the caller's session. Each row named by a record ends `finished` with the `rtr` state and
      JSON of the last record naming it; rows no record names are untouched. On a failing
      UPDATE it stops: the earlier updates stay in the session and no rollback happens here. */
  function UpdateSyncLogFilesJsonAllAndState(rows: seq<SyncLogFileRow>, records: seq<SyncLogFileModel>,
                                             faults: UpdateFaults): (r: UpdateResult)
    ensures |r.rows| == |rows| && forall i :: 0 <= i < |rows| ==> r.rows[i].id == rows[i].id
    ensures r.err.None? <==> forall k :: 0 <= k < |records| ==> faults(StmtFor(records[k])).None?
    decreases |records|
  {
    if |records| == 0 then UpdateResult(rows, None)
    else
      var s := StmtFor(records[0]);
      match faults(s)
      case Some(e) => UpdateResult(rows, Some(e))
      case None =>
        assert forall k :: 0 < k < |records| ==> records[1..][k - 1] == records[k];
        UpdateSyncLogFilesJsonAllAndState(ApplyUpdate(rows, s), records[1..], faults)
  }

  /** The UPDATE statements of the loop, one per record, in order. */
  function UpdateStmts(records: seq<SyncLogFileModel>): (stmts: seq<UpdateStmt>)
    ensures |stmts| == |records|
  {
    seq(|records|, k requires 0 <= k < |records| => StmtFor(records[k]))
  }

  /** The loop fails exactly when one of its UPDATEs fails, with the first failing one's error. */
  lemma {:induction false} UpdateAllError(rows: seq<SyncLogFileRow>, records: seq<SyncLogFileModel>,
                                          faults: UpdateFaults)
    ensures UpdateSyncLogFilesJsonAllAndState(rows, records, faults).err == FirstFault(UpdateStmts(records), faults)
    decreases |records|
  {
    if |records| > 0 {
      var s := StmtFor(records[0]);
      assert UpdateStmts(records) == [s] + UpdateStmts(records[1..]);
      FirstFaultCons(s, UpdateStmts(records[1..]), faults);
      if faults(s).None? {
        UpdateAllError(ApplyUpdate(rows, s), records[1..], faults);
      }
    }
  }

  /** After a run with no failing UPDATE, a row no record names is untouched, and a row some
      record names is `finished` with the `rtr` state and JSON of the last record naming it. */
  lemma {:induction false} UpdateAllSucceeded(rows: seq<SyncLogFileRow>, records: seq<SyncLogFileModel>,
                                              faults: UpdateFaults)
    requires UpdateSyncLogFilesJsonAllAndState(rows, records, faults).err.None?
    ensures forall i :: 0 <= i < |rows| && LastFor(records, rows[i].id).None? ==>
              UpdateSyncLogFilesJsonAllAndState(rows, records, faults).rows[i] == rows[i]
    ensures forall i :: 0 <= i < |rows| && LastFor(records, rows[i].id).Some? ==>
              UpdateSyncLogFilesJsonAllAndState(rows, records, faults).rows[i]
              == rows[i].(updateCertTable := Finished,
                          rtr := RtrState(LastFor(records, rows[i].id).value),
                          jsonAll := NullString(LastFor(records, rows[i].id).value.jsonAll))
    decreases |records|
  {
    if |records| > 0 {
      var rows1 := ApplyUpdate(rows, StmtFor(records[0]));
      UpdateAllSucceeded(rows1, records[1..], faults);
      LastForCons(records);
    }
  }

  /** A failing UPDATE stops the loop with no rollback: the rows are those of the run over the
      records before it, which succeeded, and the error is that UPDATE's. */
  lemma UpdateAllStopsAtFailure(rows: seq<SyncLogFileRow>, records: seq<SyncLogFileModel>, faults: UpdateFaults)
    requires UpdateSyncLogFilesJsonAllAndState(rows, records, faults).err.Some?
    ensures exists k :: 0 <= k < |records|
              && UpdateSyncLogFilesJsonAllAndState(rows, records[..k], faults)
                 == UpdateResult(UpdateSyncLogFilesJsonAllAndState(rows, records, faults).rows, None)
              && faults(StmtFor(records[k])) == UpdateSyncLogFilesJsonAllAndState(rows, records, faults).err
              && forall j :: 0 <= j < k ==> faults(StmtFor(records[j])).None?
  {
    var k := UpdateAllFirstFailure(rows, records, faults);
    UpdateAllUpTo(rows, records, faults, k);
  }

  /** The index of the first failing UPDATE of a failed loop. */
  lemma UpdateAllFirstFailure(rows: seq<SyncLogFileRow>, records: seq<SyncLogFileModel>, faults: UpdateFaults)
    returns (k: nat)
    requires UpdateSyncLogFilesJsonAllAndState(rows, records, faults).err.Some?
    ensures k < |records| && faults(StmtFor(records[k])) == UpdateSyncLogFilesJsonAllAndState(rows, records, faults).err
    ensures forall j :: 0 <= j < k ==> faults(StmtFor(records[j])).None?
  {
    var stmts := UpdateStmts(records);
    UpdateAllError(rows, records, faults);
    k :| 0 <= k < |stmts| && faults(stmts[k]) == FirstFault(stmts, faults)
         && forall j :: 0 <= j < k ==> faults(stmts[j]).None?;
    assert forall j :: 0 <= j <= k ==> stmts[j] == StmtFor(records[j]);
  }

  /** When the UPDATEs before record `k` succeed and record `k`'s fails, the loop ends there
      with the rows of the run over the first `k` records. */
  lemma {:induction false} UpdateAllUpTo(rows: seq<SyncLogFileRow>, records: seq<SyncLogFileModel>,
                                         faults: UpdateFaults, k: nat)
    requires k < |records|
    requires forall j :: 0 <= j < k ==> faults(StmtFor(records[j])).None?
    requires faults(StmtFor(records[k])).Some?
    ensures UpdateSyncLogFilesJsonAllAndState(rows, records[..k], faults)
            == UpdateResult(UpdateSyncLogFilesJsonAllAndState(rows, records, faults).rows, None)
    ensures UpdateSyncLogFilesJsonAllAndState(rows, records, faults).err == faults(StmtFor(records[k]))
    decreases k
  {
    if k == 0 {
      assert records[..0] == [];
    } else {
      var rows1 := ApplyUpdate(rows, StmtFor(records[0]));
      assert forall j :: 0 <= j < k ==> records[1..][j] == records[j + 1];
      UpdateAllUpTo(rows1, records[1..], faults, k - 1);
      assert records[..k][0] == records[0];
      assert records[..k][1..] == records[1..][..k - 1];
    }
  }

  /** Peeling the first record off: the last record with an id is in the rest, or is the first. */
  lemma {:induction false} LastForCons(records: seq<SyncLogFileModel>)
    requires |records| > 0
    ensures forall id :: LastFor(records, id)
              == if LastFor(records[1..], id).Some? then LastFor(records[1..], id)
                 else if records[0].id == id then Some(records[0]) else None
    decreases |records|
  {
    if |records| > 1 {
      var init := records[..|records| - 1];
      LastForCons(init);
      assert init[1..] == records[1..][..|records[1..]| - 1];
    }
  }

  /** When the records name distinct rows, every row named by a record ends `finished` with
      that record's `rtr` state: `notYet` for a ROA not being deleted, `notNeed` otherwise. */
  lemma EachNamedRowFinished(rows: seq<SyncLogFileRow>, records: seq<SyncLogFileModel>, faults: UpdateFaults,
                             k: nat, i: nat)
    requires UpdateSyncLogFilesJsonAllAndState(rows, records, faults).err.None?
    requires forall a, b :: 0 <= a < b < |records| ==> records[a].id != records[b].id
    requires k < |records| && i < |rows| && rows[i].id == records[k].id
    ensures UpdateSyncLogFilesJsonAllAndState(rows, records, faults).rows[i].updateCertTable == Finished
    ensures UpdateSyncLogFilesJsonAllAndState(rows, records, faults).rows[i].rtr == NotYet
            <==> records[k].fileType == "roa" && records[k].syncType != "del"
  {
    LastForDistinct(records, k);
    UpdateAllSucceeded(rows, records, faults);
  }

  lemma {:induction false} LastForDistinct(records: seq<SyncLogFileModel>, k: nat)
    requires forall a, b :: 0 <= a < b < |records| ==> records[a].id != records[b].id
    requires k < |records|
    ensures LastFor(records, records[k].id) == Some(records[k])
    decreases |records|
  {
    if k < |records| - 1 {
      var init := records[..|records| - 1];
      LastForDistinct(init, k);
    }
  }
}

=== FILE: sync_start.dfy ===
/** One sync run, `Start` in the sync service: open the sync log, classify the TAL endpoints,
    redirect to a full reset when the on-disk layout belongs to the other transport, otherwise
    dispatch the transports, wait for them, close the log and start parse/validate. Every
    collaborator (database, TAL service, file system, transports) answers through `StartEnv`. */
module SyncStart {
  import opened Wrappers
  import opened UrlClassify
  import opened FullSync
  import opened FanIn

  /** The sync-log row's state as the run fills it in. */
  datatype SyncLogSyncState = SyncLogSyncState(
    syncStyle: string,
    rrdpUrls: seq<string>,
    rsyncUrls: seq<string>,
    rrdpResult: Option<SyncResult>,
    rsyncResult: Option<SyncResult>)

  /** The answers of the collaborators in one run. */
  datatype StartEnv = StartEnv(
    insertSyncLog: Result<nat>,                         // InsertSyncLogSyncStateStart: the new sync-log id
    tals: Result<seq<TalModel>>,                        // getTals
    rrdpDestConf: string,                               // rrdp::destpath
    rsyncDestConf: string,                              // rsync::destpath
    sep: string,                                        // the path separator
    join: JoinOracle,                                   // urlutil.JoinPrefixPathAndUrlHost
    isExists: ExistsOracle,                             // osutil.IsExists
    signals: seq<Signal>,                               // arrival order on the two result channels
    updateSyncLog: (nat, SyncLogSyncState) -> Option<string>) // UpdateSyncLogSyncStateEnd's error

  /** How a run ends; the last three are the runs whose transports were dispatched. */
  datatype StartOutcome =
    | SyncLogInsertFailed
    | GetTalsFailed
    | NoUrls
    | FullSyncTriggered(resetBody: string)                        // posted to /sys/initreset
    | WaitingForTransports(syncLogId: nat, state: SyncLogSyncState) // the wait never ends
    | SyncLogUpdateFailed(syncLogId: nat, state: SyncLogSyncState)
    | ParseValidateTriggered(syncLogId: nat, state: SyncLogSyncState) // posted to /parsevalidate/start
  {
    predicate Dispatched() {
      WaitingForTransports? || SyncLogUpdateFailed? || ParseValidateTriggered?
    }
  }

  /** The request body of the full-reset trigger. */
  function ResetBody(syncStyle: string): string {
    "{\"sysStyle\":\"fullsync\", \"syncStyle\":\"" + syncStyle + "\"}"
  }

  function PlannedRrdp(syncStyle: string, tals: seq<TalModel>): seq<string> {
    Routed(syncStyle, Flatten(tals), ToRrdp)
  }

  function PlannedRsync(syncStyle: string, tals: seq<TalModel>): seq<string> {
    Routed(syncStyle, Flatten(tals), ToRsync)
  }

  /** The full-sync verdict for the endpoints planned from `tals`. */
  function Verdict(syncStyle: string, env: StartEnv, tals: seq<TalModel>): Detection {
    CheckNeedFullSync(env.rrdpDestConf, env.rsyncDestConf, env.sep,
                      PlannedRrdp(syncStyle, tals), PlannedRsync(syncStyle, tals), env.join, env.isExists)
  }

  /** The run reaches the full-sync check: the log row and the TALs were obtained and some URL was planned. */
  predicate ReachesCheck(syncStyle: string, env: StartEnv) {
    && env.insertSyncLog.Success?
    && env.tals.Success?
    && !(PlannedRrdp(syncStyle, env.tals.value) == [] && PlannedRsync(syncStyle, env.tals.value) == [])
  }

  /** The model of `Start`. Transports are dispatched only when the full-sync check answers
      `(false, nil)`; any other answer posts the reset trigger instead. Parse/validate is
      triggered only once the wait has ended and the sync log was updated successfully. */
  method Start(syncStyle: string, env: StartEnv) returns (out: StartOutcome)
    ensures out.SyncLogInsertFailed? <==> env.insertSyncLog.Failure?
    ensures out.GetTalsFailed? <==> env.insertSyncLog.Success? && env.tals.Failure?
    ensures out.NoUrls? <==>
              env.insertSyncLog.Success? && env.tals.Success?
              && PlannedRrdp(syncStyle, env.tals.value) == [] && PlannedRsync(syncStyle, env.tals.value) == []
    ensures out.FullSyncTriggered? <==>
              ReachesCheck(syncStyle, env) && Verdict(syncStyle, env, env.tals.value).needFullSync
    ensures out.FullSyncTriggered? ==> out.resetBody == ResetBody(syncStyle)
    ensures out.Dispatched() ==>
              ReachesCheck(syncStyle, env)
              && Verdict(syncStyle, env, env.tals.value) == Detection(false, None)
              && out.syncLogId == env.insertSyncLog.value
              && out.state.syncStyle == syncStyle
              && out.state.rrdpUrls == PlannedRrdp(syncStyle, env.tals.value)
              && out.state.rsyncUrls == PlannedRsync(syncStyle, env.tals.value)
    ensures out.WaitingForTransports? ==>
              forall j :: 1 <= j <= |env.signals| ==>
                !AllReported(out.state.rrdpUrls, out.state.rsyncUrls, env.signals[..j])
    ensures out.WaitingForTransports? ==>
              out.state.rrdpResult == LastRrdp(env.signals) && out.state.rsyncResult == LastRsync(env.signals)
    ensures out.SyncLogUpdateFailed? || out.ParseValidateTriggered? ==>
              exists j :: 1 <= j <= |env.signals|
                && AllReported(out.state.rrdpUrls, out.state.rsyncUrls, env.signals[..j])
                && (forall k :: 1 <= k < j ==> !AllReported(out.state.rrdpUrls, out.state.rsyncUrls, env.signals[..k]))
                && out.state.rrdpResult == LastRrdp(env.signals[..j])
                && out.state.rsyncResult == LastRsync(env.signals[..j])
    ensures out.SyncLogUpdateFailed? ==> env.updateSyncLog(out.syncLogId, out.state).Some?
    ensures out.ParseValidateTriggered? ==> env.updateSyncLog(out.syncLogId, out.state).None?
  {
    if env.insertSyncLog.Failure? {
      return SyncLogInsertFailed;
    }
    var syncLogId := env.insertSyncLog.value;
    if env.tals.Failure? {
      return GetTalsFailed;
    }
    var tals := env.tals.value;
    var rrdpUrls, rsyncUrls, err := GetUrlsBySyncStyle(syncStyle, tals);
    if err.Some? {
      return NoUrls;
    }
    var detection := CheckNeedFullSync(env.rrdpDestConf, env.rsyncDestConf, env.sep,
                                       rrdpUrls, rsyncUrls, env.join, env.isExists);
    if detection.needFullSync || detection.err.Some? {
      return FullSyncTriggered(ResetBody(syncStyle));
    }
    var wait := CallRrdpAndRsync(rrdpUrls, rsyncUrls, env.signals);
    var state := SyncLogSyncState(syncStyle, rrdpUrls, rsyncUrls, wait.rrdpResult, wait.rsyncResult);
    if wait.Blocked? {
      return WaitingForTransports(syncLogId, state);
    }
    if env.updateSyncLog(syncLogId, state).Some? {
      return SyncLogUpdateFailed(syncLogId, state);
    }
    return ParseValidateTriggered(syncLogId, state);
  }
}

=== FILE: url_classify.dfy ===
/** Endpoint classification of a sync run: which TAL endpoints are fetched by RRDP and
    which by rsync, for the three sync styles `sync`, `rrdp` and `rsync`. */
module UrlClassify {
  import opened Wrappers

  /** One repository endpoint announced by a TAL: an RRDP notification URL and an rsync
      URL, each with a flag saying whether the repository offers that transport. */
  datatype TalSyncUrl = TalSyncUrl(rrdpUrl: string, supportRrdp: bool, rsyncUrl: string, supportRsync: bool)

  /** A trust anchor locator with its endpoints, in the order the TAL service lists them. */
  datatype TalModel = TalModel(talSyncUrls: seq<TalSyncUrl>)

  const StyleSync := "sync"
  const StyleRrdp := "rrdp"
  const StyleRsync := "rsync"

  const NoUrlsError := "there is neighor rrdp urls nor rsync urls"

  /** The list an endpoint is appended to, if any. */
  datatype Route = ToRrdp | ToRsync | Skip

  /** The classification rule for one endpoint. `sync` prefers RRDP and falls back to rsync;
      `rrdp` and `rsync` take only endpoints offering that transport; any other style takes nothing. */
  function RouteOf(style: string, u: TalSyncUrl): (r: Route)
    ensures style == StyleSync ==> (r == ToRrdp <==> u.supportRrdp)
    ensures style == StyleSync ==> (r == ToRsync <==> !u.supportRrdp && u.supportRsync)
    ensures style == StyleRrdp ==> (r == ToRrdp <==> u.supportRrdp) && r != ToRsync
    ensures style == StyleRsync ==> (r == ToRsync <==> u.supportRsync) && r != ToRrdp
    ensures style !in {StyleSync, StyleRrdp, StyleRsync} ==> r == Skip
  {
    if style == StyleSync then
      if u.supportRrdp then ToRrdp else if u.supportRsync then ToRsync else Skip
    else if style == StyleRrdp then
      if u.supportRrdp then ToRrdp else Skip
    else if style == StyleRsync then
      if u.supportRsync then ToRsync else Skip
    else
      Skip
  }

  /** The URL an endpoint contributes to the list of `route`. */
  function UrlFor(route: Route, u: TalSyncUrl): string {
    if route == ToRrdp then u.rrdpUrl else u.rsyncUrl
  }

  /** All endpoints in iteration order: TAL order, then endpoint order within a TAL. */
  function Flatten(tals: seq<TalModel>): seq<TalSyncUrl> {
    if |tals| == 0 then [] else Flatten(tals[..|tals| - 1]) + tals[|tals| - 1].talSyncUrls
  }

  /** Reference definition of one output list: the URLs of the endpoints routed to `route`, in order. */
  function Routed(style: string, us: seq<TalSyncUrl>, route: Route): seq<string> {
    if |us| == 0 then []
    else
      var last := us[|us| - 1];
      Routed(style, us[..|us| - 1], route) + (if RouteOf(style, last) == route then [UrlFor(route, last)] else [])
  }

  /** The positions in `us` of the endpoints routed to `route`, in increasing order. */
  function Indices(style: string, us: seq<TalSyncUrl>, route: Route): seq<nat> {
    if |us| == 0 then []
    else Indices(style, us[..|us| - 1], route) + (if RouteOf(style, us[|us| - 1]) == route then [|us| - 1] else [])
  }

  /** The model of `getUrlsBySyncStyle`: the nested loop over TALs and their endpoints. On
      success the two lists are exactly the routed URLs; when both would be empty the call
      fails and returns empty (nil) lists. */
  method GetUrlsBySyncStyle(style: string, tals: seq<TalModel>)
    returns (rrdpUrls: seq<string>, rsyncUrls: seq<string>, err: Option<string>)
    ensures err.None? ==> rrdpUrls == Routed(style, Flatten(tals), ToRrdp)
    ensures err.None? ==> rsyncUrls == Routed(style, Flatten(tals), ToRsync)
    ensures err.Some? ==> rrdpUrls == [] && rsyncUrls == [] && err == Some(NoUrlsError)
    ensures err.Some? <==> Routed(style, Flatten(tals), ToRrdp) == [] && Routed(style, Flatten(tals), ToRsync) == []
  {
    rrdpUrls, rsyncUrls := [], [];
    var i := 0;
    while i < |tals|
      invariant 0 <= i <= |tals|
      invariant rrdpUrls == Routed(style, Flatten(tals[..i]), ToRrdp)
      invariant rsyncUrls == Routed(style, Flatten(tals[..i]), ToRsync)
    {
      var urls := tals[i].talSyncUrls;
      ghost var done := Flatten(tals[..i]);
      var j := 0;
      assert done + urls[..j] == done;
      while j < |urls|
        invariant 0 <= j <= |urls|
        invariant rrdpUrls == Routed(style, done + urls[..j], ToRrdp)
        invariant rsyncUrls == Routed(style, done + urls[..j], ToRsync)
      {
        var u := urls[j];
        if style == StyleSync {
          if u.supportRrdp {
            rrdpUrls := rrdpUrls + [u.rrdpUrl];
          } else if u.supportRsync {
            rsyncUrls := rsyncUrls + [u.rsyncUrl];
          }
        } else if style == StyleRrdp {
          if u.supportRrdp {
            rrdpUrls := rrdpUrls + [u.rrdpUrl];
          }
        } else if style == StyleRsync {
          if u.supportRsync {
            rsyncUrls := rsyncUrls + [u.rsyncUrl];
          }
        }
        assert (done + urls[..j + 1])[..|done + urls[..j + 1]| - 1] == done + urls[..j];
        j := j + 1;
      }
      assert urls[..j] == urls;
      assert tals[..i + 1][..i] == tals[..i];
      i := i + 1;
    }
    assert tals[..i] == tals;
    if |rrdpUrls| == 0 && |rsyncUrls| == 0 {
      return [], [], Some(NoUrlsError);
    }
    err := None;
  }

  /** Classifying a concatenation classifies each part. */
  lemma {:induction false} RoutedAppend(style: string, a: seq<TalSyncUrl>, b: seq<TalSyncUrl>, route: Route)
    ensures Routed(style, a + b, route) == Routed(style, a, route) + Routed(style, b, route)
    decreases |b|
  {
    if |b| == 0 {
      assert a + b == a;
    } else {
      var b' := b[..|b| - 1];
      assert (a + b)[..|a + b| - 1] == a + b';
      RoutedAppend(style, a, b', route);
    }
  }

  /** Each output list is an order-preserving subsequence of the input endpoints: the k-th URL
      comes from the k-th routed position, positions strictly increase, and every endpoint
      routed to the list appears in it. */
  lemma {:induction false} RoutedIsOrderedSubsequence(style: string, us: seq<TalSyncUrl>, route: Route)
    ensures |Indices(style, us, route)| == |Routed(style, us, route)|
    ensures forall k :: 0 <= k < |Indices(style, us, route)| ==>
              Indices(style, us, route)[k] < |us|
              && RouteOf(style, us[Indices(style, us, route)[k]]) == route
              && Routed(style, us, route)[k] == UrlFor(route, us[Indices(style, us, route)[k]])
    ensures forall k1, k2 :: 0 <= k1 < k2 < |Indices(style, us, route)| ==>
              Indices(style, us, route)[k1] < Indices(style, us, route)[k2]
    ensures forall i :: 0 <= i < |us| && RouteOf(style, us[i]) == route ==> i in Indices(style, us, route)
    decreases |us|
  {
    if |us| > 0 {
      var us' := us[..|us| - 1];
      RoutedIsOrderedSubsequence(style, us', route);
      assert forall i :: 0 <= i < |us'| ==> us'[i] == us[i];
    }
  }

  /** With style `rrdp` the rsync list is empty. */
  lemma {:induction false} RrdpStyleHasNoRsync(us: seq<TalSyncUrl>)
    ensures Routed(StyleRrdp, us, ToRsync) == []
    decreases |us|
  {
    if |us| > 0 {
      RrdpStyleHasNoRsync(us[..|us| - 1]);
    }
  }

  /** With style `rsync` the RRDP list is empty. */
  lemma {:induction false} RsyncStyleHasNoRrdp(us: seq<TalSyncUrl>)
    ensures Routed(StyleRsync, us, ToRrdp) == []
    decreases |us|
  {
    if |us| > 0 {
      RsyncStyleHasNoRrdp(us[..|us| - 1]);
    }
  }

  /** An unrecognised style selects nothing, so `GetUrlsBySyncStyle` fails for it. */
  lemma {:induction false} UnknownStyleSelectsNothing(style: string, us: seq<TalSyncUrl>, route: Route)
    requires style !in {StyleSync, StyleRrdp, StyleRsync}
    requires route != Skip
    ensures Routed(style, us, route) == []
    decreases |us|
  {
    if |us| > 0 {
      UnknownStyleSelectsNothing(style, us[..|us| - 1], route);
    }
  }

  /** With style `sync`, an endpoint is in the RRDP list exactly when it supports RRDP, and in
      the rsync list exactly when it lacks RRDP support and supports rsync; never in both. */
  lemma SyncStylePrefersRrdp(us: seq<TalSyncUrl>, i: nat)
    requires i < |us|
    ensures i in Indices(StyleSync, us, ToRrdp) <==> us[i].supportRrdp
    ensures i in Indices(StyleSync, us, ToRsync) <==> !us[i].supportRrdp && us[i].supportRsync
    ensures !(i in Indices(StyleSync, us, ToRrdp) && i in Indices(StyleSync, us, ToRsync))
  {
    RoutedIsOrderedSubsequence(StyleSync, us, ToRrdp);
    RoutedIsOrderedSubsequence(StyleSync, us, ToRsync);
  }

  /** A single endpoint offering both transports goes to RRDP only under style `sync`. */
  lemma SingleEndpointExample()
    ensures Routed(StyleSync, Flatten([TalModel([TalSyncUrl("https://a/rrdp", true, "rsync://a/repo", true)])]), ToRrdp)
            == ["https://a/rrdp"]
    ensures Routed(StyleSync, Flatten([TalModel([TalSyncUrl("https://a/rrdp", true, "rsync://a/repo", true)])]), ToRsync)
            == []
  {
    var tals := [TalModel([TalSyncUrl("https://a/rrdp", true, "rsync://a/repo", true)])];
    assert tals[..0] == [];
    assert Flatten(tals) == [TalSyncUrl("https://a/rrdp", true, "rsync://a/repo", true)];
  }
}

=== FILE: wrappers.dfy ===
/** Failure-carrying values used in place of Go's `(value, error)` pairs. */
module Wrappers {

  /** A value that may be absent; `None` also stands for Go's zero value of a struct never assigned. */
  datatype Option<+T> = None | Some(value: T)

  /** The outcome of a call that returns a value or an error message. */
  datatype Result<+T> = Success(value: T) | Failure(error: string)
}

=== FILE: xorm_db.dfy ===
/** Helpers of the database access layer shared by the tables of this model. */
module XormDb {
  import opened Wrappers

  /** `xormdb.SqlNullString`: the empty string is stored as NULL, any other string as itself. */
  function NullString(s: string): (r: Option<string>)
    ensures r.None? <==> s == ""
    ensures r.Some? ==> r.value == s
  {
    if s == "" then None else Some(s)
  }

  /** The error a sequence of statements returns when they run in order and the first failing
      one ends the run: `None` exactly when every statement succeeds, otherwise the error of the
      first statement that fails. */
  function FirstFault<S>(stmts: seq<S>, faults: S -> Option<string>): (e: Option<string>)
    ensures e.None? <==> forall k :: 0 <= k < |stmts| ==> faults(stmts[k]).None?
    ensures e.Some? ==>
              exists k :: 0 <= k < |stmts| && faults(stmts[k]) == e
                && forall j :: 0 <= j < k ==> faults(stmts[j]).None?
    decreases |stmts|
  {
    if |stmts| == 0 then None
    else if faults(stmts[0]).Some? then faults(stmts[0])
    else
      var rest := FirstFault(stmts[1..], faults);
      assert forall k :: 0 < k < |stmts| ==> stmts[1..][k - 1] == stmts[k];
      rest
  }

  /** Running one statement and then the rest. */
  lemma FirstFaultCons<S>(s: S, rest: seq<S>, faults: S -> Option<string>)
    ensures FirstFault([s] + rest, faults) == if faults(s).Some? then faults(s) else FirstFault(rest, faults)
  {
    assert ([s] + rest)[0] == s;
    assert ([s] + rest)[1..] == rest;
  }

  /** Running two sequences of statements one after the other: the second one only runs when
      the first one succeeded. */
  lemma {:induction false} FirstFaultAppend<S>(a: seq<S>, b: seq<S>, faults: S -> Option<string>)
    ensures FirstFault(a + b, faults) == if FirstFault(a, faults).Some? then FirstFault(a, faults) else FirstFault(b, faults)
    decreases |a|
  {
    if |a| == 0 {
      assert a + b == b;
    } else {
      assert a + b == [a[0]] + (a[1..] + b);
      assert a == [a[0]] + a[1..];
      FirstFaultCons(a[0], a[1..] + b, faults);
      FirstFaultCons(a[0], a[1..], faults);
      FirstFaultAppend(a[1..], b, faults);
    }
  }
}
